=== FILE: README.md ===
# GROWI search plugin: a Dafny model

This project models the core of a GROWI plugin that adds two markdown
directives to a wiki page:

- `:search[query]` renders a Google-style search box that queries the wiki's
  own search APIs.
- `:plugin[label]` renders a demonstration widget.

The model covers three parts of the plugin.

- **Directive transform.** `remarkPlugin` visits every node of the parsed
  document. It turns `plugin` and `search` directives into anchors whose
  `title` carries a JSON render instruction (module `Directive`).
- **Component resolvers.** `enhancedGROWI` and `helloGROWI` decode that
  instruction when the anchor renders. They pick the search box, the plugin
  widget, or the anchor as it was (module `Resolver`).
- **Search box.** `performSearch` probes four candidate endpoints in order:
  `/_api/search`, `/_api/v3/search`, `/_api/pages` and `/_api/elasticsearch`.
  - An endpoint is skipped when its response is not ok, not JSON, or not a
    recognized shape.
  - The results of the first recognized shape are normalized and stored.
  - If no endpoint is recognized, a demonstration list is stored.
  - If encoding the query throws, each endpoint's request fails inside that
    endpoint's own `try` and is skipped. Building the demonstration list
    then encodes the query again, outside every per-endpoint `try`, and
    that throw stores a single error entry.

  The module also covers "I'm Feeling Lucky" and how one stored result is
  shown: link, title fallback, and a tag-stripped snippet cut at 150
  characters (modules `Normalize`, `Search`, `Display`).

JavaScript values are the datatype `JsValues.Json`. `undefined` is `None`,
and truthiness, optional chaining and `||` follow the JavaScript rules.
Strings are sequences of Unicode scalar values.

The code's collaborators are parameters:
- the network is `fetch: string -> Outcome`, keyed by request URL;
- `encodeURIComponent` is `encode: string -> Option<string>`, where `None`
  means it throws;
- `JSON.parse` of a plain-text title is `parse: string -> Option<Json>`.

A title that holds a stringified render instruction decodes to exactly that
instruction (`Resolver.InstructionJson`).

Modules, one file each:

| file | module | what |
|---|---|---|
| `js_values.dfy` | `JsValues` | JSON values, truthiness, member reads, `filter`, a throwing `map` |
| `text.dfy` | `Text` | `trim`, `includes`, `split('/')` last segment, the tag-stripping replace, `String(n)` |
| `normalize.dfy` | `Normalize` | request URLs, the skip rule, shape sniffing and normalization per endpoint |
| `search.dfy` | `Search` | session state, the endpoint fallback, demo and error lists, "I'm Feeling Lucky" |
| `display.dfy` | `Display` | `formatSearchResultBody`, the title fallback, the result list |
| `directive.dfy` | `Directive` | the markdown tree and `remarkPlugin`'s visitor |
| `resolver.dfy` | `Resolver` | `enhancedGROWI`, `helloGROWI`, query extraction, directive-to-render lemmas |

## Model

| member | source | states |
|---|---|---|
| JsValues.Filter | src/GoogleSearch.tsx:59 | `filter(p)` keeps exactly the elements satisfying `p`, never more than the input |
| JsValues.FilterKeepsAll | src/GoogleSearch.tsx:169 | filtering a list whose every element satisfies the predicate gives the list back |
| JsValues.FilterAppend | src/GoogleSearch.tsx:332 | filtering distributes over concatenation |
| JsValues.TryMap | src/GoogleSearch.tsx:65-85 | a `map` whose callback may throw succeeds iff no element's callback throws, and then maps element by element |
| Text.TrimStart | src/GoogleSearch.tsx:40 | leading trim drops exactly the maximal run of ECMAScript whitespace |
| Text.TrimEnd | src/GoogleSearch.tsx:40 | trailing trim drops exactly the maximal trailing whitespace run |
| Text.TrimEmptyIffAllSpace | src/GoogleSearch.tsx:40 | `!q.trim()` holds iff the query consists of whitespace only |
| Text.SuffixContains | src/GoogleSearch.tsx:189 | text embedded in a template is contained in the result |
| Text.LastSegment | src/GoogleSearch.tsx:73-74 | the last element of `split('/')` is the slash-free suffix after the last `/` |
| Text.StripHtmlTags | src/GoogleSearch.tsx:255-257 | stripping tags never lengthens the text |
| Text.StripIsGlobalReplace | src/GoogleSearch.tsx:255-257 | the scan equals the reference semantics of the global replace of `<[^>]*>` by leftmost matches |
| Text.ScanIsReplaceFrom | src/GoogleSearch.tsx:256 | the scan from any position agrees with the replace resumed there |
| Text.ScanIsReplaceFromTag | src/GoogleSearch.tsx:256 | at a `<`, scan and replace agree whether or not a `>` follows |
| Text.ClosedTagDropped | src/GoogleSearch.tsx:256 | a `<` followed by a `>` starts a match that both scan and replace drop whole |
| Text.UnclosedTagKept | src/GoogleSearch.tsx:256 | a `<` with no later `>` is kept, and so is everything after it |
| Text.ScanInTagResult | src/GoogleSearch.tsx:256 | held-back tag text is dropped at the first `>` or given back at end of input |
| Text.IndexOf | src/GoogleSearch.tsx:256 | the first position of a character, or none, with nothing earlier matching |
| Text.MatchAt | src/GoogleSearch.tsx:256 | a match of `<[^>]*>` at a position ends after that position, within the text |
| Text.StripLeavesNoTag | src/GoogleSearch.tsx:255-257 | after stripping, no `<` is followed by a `>` |
| Text.StripKeepsTagFree | src/GoogleSearch.tsx:255-257 | text with no tag in it passes through unchanged |
| Text.StripIdempotent | src/GoogleSearch.tsx:255-257 | stripping twice is stripping once |
| Text.ConsNoTag | src/GoogleSearch.tsx:256 | prefixing a non-`<` character keeps text tag-free |
| Text.NoTagPrefixAndSuffix | src/GoogleSearch.tsx:263 | a prefix of tag-free text, followed by `...`, is tag-free |
| Text.NatText | src/Hello.tsx:89-93 | `String(n)` of a natural number is non-empty decimal digits with no leading zero |
| Text.NatTextRoundTrip | src/Hello.tsx:89-93 | the digits `String(n)` writes read back as `n` |
| Text.IntText | src/Hello.tsx:89-93 | `String(n)` of an integer starts with `-` iff the number is negative, and the rest is the decimal text of its magnitude |
| Text.IntTextRoundTrip | src/Hello.tsx:89-93 | the text `String(n)` writes, read back with its sign, is `n` |
| Normalize.RequestUrlsDistinct | src/GoogleSearch.tsx:52-156 | the four endpoints never share a request URL |
| Normalize.PageTitle | src/GoogleSearch.tsx:72-74 | a page's title is its last path segment, else the whole path, else `Untitled` |
| Normalize.NormalizePage | src/GoogleSearch.tsx:65-85 | one page item normalizes to path, title, snippet-or-empty body and score 1.0, and throws iff its `path` is truthy but not a string |
| Normalize.NormalizePages | src/GoogleSearch.tsx:65-85 | mapping the kept page items succeeds iff no item's normalization throws |
| Normalize.NormalizeHit | src/GoogleSearch.tsx:163-168 | a hit normalizes to `_id`, `path` or `url`, title, `body` or `content`, and `_score` |
| Normalize.NormalizeHits | src/GoogleSearch.tsx:163-169 | mapping hits succeeds iff no hit is `null`, one result per hit in order |
| Normalize.Shape | src/GoogleSearch.tsx:58-172 | a `null` body is never a recognized shape |
| Normalize.Attempt | src/GoogleSearch.tsx:53-55 | an endpoint yields results only for an ok response declared JSON whose body parses, and then exactly its shape |
| Normalize.SearchApiRecognizedIff | src/GoogleSearch.tsx:58-89 | the first endpoint recognizes a body iff it has a `searchResult.data` array, or a `data` array whose kept page items all normalize without throwing |
| Normalize.ObjectListRecognizedIff | src/GoogleSearch.tsx:108-143 | the v3 endpoint recognizes a body iff `searchResult.data` or `data` is an array; the pages endpoint iff `pages` or `data` is an array |
| Normalize.ElasticsearchRecognizedIff | src/GoogleSearch.tsx:162-172 | the Elasticsearch endpoint recognizes a body iff `hits` is truthy and `hits.hits` is an array with no `null` hit |
| Normalize.ShapePrecedence | src/GoogleSearch.tsx:58-143 | `searchResult.data` wins over `data` on the first two endpoints, and `pages` over `data` on the pages endpoint; the winning list's object items are kept in order |
| Normalize.SearchApiPageShape | src/GoogleSearch.tsx:62-88 | the first endpoint keeps page items with truthy `data`, in order, each normalized by the page rule |
| Normalize.ElasticsearchHitsOneToOne | src/GoogleSearch.tsx:162-171 | the Elasticsearch endpoint yields exactly one normalized result per hit, in order |
| Normalize.EmptyListIsRecognized | src/GoogleSearch.tsx:58-143 | an empty `data` or `pages` array is a success with no results on the first three endpoints |
| Normalize.EmptyHitsAreRecognized | src/GoogleSearch.tsx:157-172 | an empty `hits.hits` array is a success with no results on the Elasticsearch endpoint |
| Search.Probe | src/GoogleSearch.tsx:50-181 | endpoints are tried in order, all but the last tried were skipped, a success is the last tried's result, and failure means every endpoint was tried and skipped |
| Search.ProbeStopsAtFirst | src/GoogleSearch.tsx:60-61 | probing stops at the first endpoint that yields a result |
| Search.PerformSearch | src/GoogleSearch.tsx:39-224 | a blank query changes nothing; otherwise the search ends not loading and marked searched, requesting endpoint URLs in order |
| Search.FirstRecognizedWins | src/GoogleSearch.tsx:50-181 | the first recognized endpoint's results are stored and no later endpoint is requested |
| Search.ExhaustionGivesDemo | src/GoogleSearch.tsx:183-208 | when every endpoint is skipped, all four are requested in order and the demonstration list is stored |
| Search.DemoResultsShape | src/GoogleSearch.tsx:185-207 | the demonstration list has ids `demo-1` to `demo-3` and scores 1.0, 0.8, 0.6; its first path is the encoded query's and its first title contains the query |
| Search.OnlyRequestedUrlsMatter | src/GoogleSearch.tsx:50-181 | the search depends only on the responses to the URLs it actually requested |
| Search.ProbeOnlyRequested | src/GoogleSearch.tsx:50-181 | probing depends only on the endpoints it tried |
| Search.EncodeFailureGivesErrorEntry | src/GoogleSearch.tsx:210-220 | when encoding the query throws, nothing is requested and only the error entry is stored |
| Search.NoUrlRequestedTwice | src/GoogleSearch.tsx:50-181 | no URL is requested twice in one search |
| Search.EmptyShapeIsSuccess | src/GoogleSearch.tsx:58-88 | a recognized empty list on the first endpoint stores no result and requests nothing else |
| Search.FeelingLucky | src/GoogleSearch.tsx:236-246 | "I'm Feeling Lucky" opens the first stored result's path iff results exist, else its run is exactly the search for the current query, which keeps the query |
| Search.LuckyDisabledBeforeFirstSearch | src/GoogleSearch.tsx:307-313 | before any search, with nothing stored, the button is disabled |
| Search.MountSearchEnablesLucky | src/GoogleSearch.tsx:249-253 | the search a non-blank initial query runs on mount enables the button, whatever it finds |
| Search.LuckyTwiceOpensDemo | src/GoogleSearch.tsx:236-246 | after a search that stored an empty list, with every endpoint now failing, the enabled button first searches, and the next click opens the demonstration path |
| Display.FormatSearchResultBody | src/GoogleSearch.tsx:259-264 | a missing, empty or non-string body shows nothing; otherwise the stripped body, cut to 150 characters plus `...` when longer |
| Display.SnippetBoundedAndTagFree | src/GoogleSearch.tsx:259-264 | a shown snippet is at most 153 characters and holds no tag |
| Display.ShortPlainBodyUnchanged | src/GoogleSearch.tsx:259-264 | tag-free text of at most 150 characters is shown unchanged |
| Display.DisplayTitle | src/GoogleSearch.tsx:341 | the shown title is `title`, else `path`, else `Untitled`, and always truthy |
| Display.EntryOf | src/GoogleSearch.tsx:333-347 | an entry links to `path` when it is truthy and to `#` otherwise, shows the fallback title and the formatted `body`; its link and title are truthy and its snippet is bounded and tag-free |
| Display.Entries | src/GoogleSearch.tsx:332-348 | the list is no longer than the stored results and as long when all are objects; every shown entry has a truthy link and title and a bounded, tag-free snippet |
| Display.EntriesAppend | src/GoogleSearch.tsx:332-348 | the list for two runs of results is the two lists in order |
| Display.EntriesIsFilterThenMap | src/GoogleSearch.tsx:332-348 | the one-pass list equals `filter` of the objects followed by `map` to entries |
| Display.EntriesIgnoreNonObjects | src/GoogleSearch.tsx:332 | dropping non-object results first changes nothing |
| Directive.WithFlag | src/Hello.tsx:180 | `{...attributes, flag: true}` keeps every attribute except one named like the flag, which becomes `true` |
| Directive.Rewrite | src/Hello.tsx:171-196 | a `plugin` or `search` node gets an anchor with its label and instruction, other `data` members kept; any other node is untouched |
| Directive.Transform | src/Hello.tsx:168-197 | the transformed node satisfies the rewrite rule and keeps its number of children |
| Directive.TransformAll | src/Hello.tsx:168-197 | children are transformed one by one, in order |
| Directive.TransformAllAppend | src/Hello.tsx:168 | transforming a run of nodes distributes over concatenation |
| Directive.NodesOfTransform | src/Hello.tsx:168 | the visit order of the transformed tree is the original visit order with each node transformed |
| Directive.NodesAllOfTransform | src/Hello.tsx:168 | the same for a list of sibling trees |
| Directive.EveryNodeRewritten | src/Hello.tsx:168-197 | every node however deep is rewritten by its own rule, and no node is added or lost |
| Directive.TransformIdempotent | src/Hello.tsx:168-197 | running the transform twice gives the same tree as once |
| Directive.TransformAllIdempotent | src/Hello.tsx:168-197 | the same for a list of sibling trees |
| Resolver.DecodeTitle | src/Hello.tsx:81 | an absent or empty title reads as `{}`, any other text title is `JSON.parse` of that text, and an instruction title reads as that instruction |
| Resolver.JoinTextual | src/Hello.tsx:89-91 | joining children with no string or number gives the empty query |
| Resolver.JoinTextualAppend | src/Hello.tsx:89-91 | the joined text of two runs of children is the two texts in order |
| Resolver.ExtractQuery | src/Hello.tsx:86-95 | the query is the joined text of an array; for a lone string, the string itself; for a lone number, its decimal text, except `0`, which is falsy and gives `''`; and empty for no children or non-text children |
| Resolver.LoneChildAsArray | src/Hello.tsx:87-93 | a lone child gives the same query as an array of just that child, except a lone `0`, which gives `''` where the array gives `"0"` |
| Resolver.ManyChildrenQuery | src/Hello.tsx:89-91 | an element child splits the query into the text before and after it |
| Resolver.EnhancedGrowi | src/Hello.tsx:78-142 | the search box is chosen iff the decoded title has a truthy `search`; otherwise the plugin widget iff a truthy `plugin`; otherwise, and on any parse failure, the anchor as it was |
| Resolver.EnhancedGrowiAsWritten | src/Hello.tsx:81-85 | on every title that does not decode to a string (absent, unparsable, `null`, a number, a boolean, an array or an object) it agrees with the corrected resolver; on a title that parses to a string it selects the search box |
| Resolver.AsWrittenDiffersOnlyOnStrings | src/Hello.tsx:81-85 | the code as written and the corrected resolver render differently iff the title decodes to a string |
| Resolver.QuotedTitleSelectsSearchBox | src/Hello.tsx:81-85 | an ordinary link whose title is a JSON string literal gets the search box as written, but not in the corrected resolver |
| Resolver.HelloGrowi | src/Hello.tsx:23-76 | the plugin widget iff the title parses to a value with a truthy `plugin`, otherwise the anchor as it was; never the search box |
| Resolver.InstructionRoundTrip | src/Hello.tsx:180-194 | a transformed directive's title decodes to its attributes as strings plus its flag as `true` |
| Resolver.InstructionSelects | src/Hello.tsx:82-100 | in a decoded instruction, a member is truthy iff it is the flag, or a non-empty attribute of that name |
| Resolver.SearchDirectiveRendersSearchBox | src/Hello.tsx:184-196 | `:search[q]{...}` renders the search box with initial query exactly `q`, whatever its attributes |
| Resolver.PluginDirectiveRendering | src/Hello.tsx:171-182 | a `plugin` directive renders the plugin widget iff it has no non-empty `search` attribute, and otherwise the search box |
| Resolver.HelloRendersPluginDirectives | src/Hello.tsx:46-47 | `helloGROWI` shows the widget for every `plugin` directive, and for a `search` directive only with a non-empty `plugin` attribute |
| Resolver.UnparsableTitleFallsBack | src/Hello.tsx:137-140 | a title that does not parse renders the anchor as it was, in `helloGROWI` and in `enhancedGROWI` both as written and corrected |

## Left out

- HTTP, the `content-type` header, and parsing the body are the parameter
  `fetch`. A body that is not JSON is `None`.
- `encodeURIComponent` is the parameter `encode`. `JSON.parse` of plain text
  is the parameter `parse`. `JSON.stringify` followed by `JSON.parse` of a
  render instruction is modelled exactly (`Resolver.InstructionJson`).
- `encode = None` stands for an input on which `encodeURIComponent` throws.
  That input is a string holding a lone surrogate, which the model's
  strings (Unicode scalar values) cannot represent. The error-entry path is
  kept for fidelity to the code, but no string of the model reaches it.
- React state hooks are not modelled; the model uses an immutable `Session`
  and a `Run` result instead. Re-rendering, JSX markup, CSS and the
  `window.location.origin` prefix are left out.
- `Math.random` as a fallback React key is left out: it affects only
  rendering identity.
- `window.open` is left out. "I'm Feeling Lucky" returns the target it would
  open.
- The counter button and the jsonplaceholder fetch in the plugin widget are
  left out. These are network I/O and UI state with no bearing on which
  component renders.
- The `growiFacade` availability check is not modelled. In both resolvers,
  when it throws, the anchor renders as it was.
- `console` logging is left out.
- `rehypePlugin` is not part of this model; it has an empty body in the
  plugin.
- The traversal internals of unist-util-visit are not modelled. The model
  uses a plain preorder walk in which the visitor never replaces or removes
  nodes.
- Overlapping searches are not modelled. This includes the intermediate
  `isLoading = true` state and a slow search overwriting a later one. Each
  search is one atomic step from the session before to the session after.
- Object members whose value is `undefined` are omitted from a built object
  rather than stored as `undefined`. Both read the same way.
- JSON numbers are `real`. The exact IEEE-754 behaviour is not modelled.
- `Display.FormatSearchResultBody`: lengths are counted in Unicode scalar
  values, not UTF-16 code units. A body with characters outside the Basic
  Multilingual Plane may therefore be cut at a different place.
- `Resolver.ExtractQuery`: number children are integers only. The model has
  no fractional or exponent formatting for `String(n)`.
- `Resolver.HostChildren`: the conversion of a transformed directive into
  React children is a simplification of the host's markdown-to-React step.
  Text nodes become strings; anything else becomes an element.
- `Directive.LabelValue`: the model assumes every node named `plugin` or
  `search` has a children array, as the directive parser produces.
- `Search.PerformSearch`: the results a search stores are stated through
  `Search.Probe`, `Search.FirstRecognizedWins`, `Search.ExhaustionGivesDemo`
  and `Search.EncodeFailureGivesErrorEntry`, not in its own contract.

## Findings

| source | as written | input that shows it | evidently intended | confidence | as-written member | corrected member |
|---|---|---|---|---|---|---|
| src/Hello.tsx:81-85 | `const { plugin, search } = JSON.parse(props.title \|\| '{}')` is an ordinary member read, so for a title that parses to a string, `search` is the inherited `String.prototype.search` method, which is truthy | any link whose title is the JSON text of a string, e.g. `[see](/page '"quoted"')`: its title parses to the string `quoted`, and the link renders as a search box | only a decoded object with a truthy own `search` member selects the search box | medium, not executed | Resolver.EnhancedGrowiAsWritten (shown by Resolver.QuotedTitleSelectsSearchBox and Resolver.AsWrittenDiffersOnlyOnStrings) | Resolver.EnhancedGrowi |

=== FILE: directive.dfy ===
/**
 The markdown directive transform (src/Hello.tsx, `remarkPlugin`): every node
 of the parsed document named `plugin` or `search` is given the markup the
 host emits for it, an anchor, with a render instruction recording the
 directive's attributes and its kind; every other node is left as it is.
 */
module Directive {
  import opened JsValues

  /** A value of the render instruction: an attribute string or a flag. */
  datatype Scalar = SStr(s: string) | SBool(b: bool)

  /** The render instruction, before `JSON.stringify`. */
  type Instruction = map<string, Scalar>

  /** A markup property: plain text, or the stringified render instruction. */
  datatype PropValue = PText(text: string) | PInstruction(instr: Instruction)

  /** The `data` of a node: the markup the host emits for it, and any other
      member some earlier step stored there. */
  datatype NodeData = NodeData(
    hName: Option<string>,
    hChildren: Option<seq<Node>>,
    hProperties: Option<map<string, PropValue>>,
    other: map<string, Json>)

  /** A node of the parsed document. Directive nodes carry a `name`, their
      `attributes` and, as children, the nodes of their label. */
  datatype Node = Node(
    kind: string,
    name: Option<string>,
    attributes: map<string, string>,
    value: Option<string>,
    data: Option<NodeData>,
    children: seq<Node>)

  /** `{ type: 'text', value }` */
  function TextNode(value: Option<string>): Node {
    Node("text", None, map[], value, None, [])
  }

  /** `{ ...attributes, [flag]: true }`: every attribute, with the flag set
      last so that it wins over an attribute of the same name. */
  function WithFlag(attributes: map<string, string>, flag: string): (r: Instruction)
    ensures r.Keys == attributes.Keys + {flag}
    ensures r[flag] == SBool(true)
    ensures forall k :: k in attributes && k != flag ==> r[k] == SStr(attributes[k])
  {
    (map k | k in attributes :: SStr(attributes[k]))[flag := SBool(true)]
  }

  /** `(n.children[0] || { value: '' }).value`: the label text of a
      directive; `None` when the first child has no `value`. */
  function LabelValue(n: Node): Option<string> {
    if |n.children| == 0 then Some("") else n.children[0].value
  }

  /** The anchor text of a `plugin` directive; a template literal renders
      a missing value as `undefined`. */
  function PluginLabel(value: Option<string>): string {
    "\U{1F680} " + (if value.Some? then value.value else "undefined") + " - Custom Plugin!"
  }

  const PluginHref := "https://example.com/rss"
  const SearchHref := "#"
  const SearchClass := "growi-google-search"

  predicate IsDirective(n: Node) {
    n.name == Some("plugin") || n.name == Some("search")
  }

  /** The flag the render instruction of a directive carries. */
  function Flag(n: Node): string
    requires IsDirective(n)
  {
    if n.name == Some("plugin") then "plugin" else "search"
  }

  /** The `title` property holds the instruction for `attributes` with `flag`
      set: every attribute is kept with its value, except one named like the
      flag, which the flag overwrites. */
  predicate CarriesInstruction(props: map<string, PropValue>, attributes: map<string, string>, flag: string) {
    && "title" in props
    && props["title"].PInstruction?
    && props["title"].instr.Keys == attributes.Keys + {flag}
    && props["title"].instr[flag] == SBool(true)
    && forall k :: k in attributes && k != flag ==> props["title"].instr[k] == SStr(attributes[k])
  }

  /** What rewriting one node must achieve, stated against the node before:
      the node keeps everything but its `data`; a directive gets an anchor
      carrying its instruction and one text child, other members of `data`
      staying as they were; any other node is untouched. */
  predicate RewriteStep(before: Node, after: Node) {
    && after.kind == before.kind
    && after.name == before.name
    && after.attributes == before.attributes
    && after.value == before.value
    && |after.children| == |before.children|
    && (if !IsDirective(before) then after.data == before.data
        else
          && after.data.Some?
          && after.data.value.other == (if before.data.Some? then before.data.value.other else map[])
          && after.data.value.hName == Some("a")
          && after.data.value.hChildren.Some?
          && |after.data.value.hChildren.value| == 1
          && after.data.value.hChildren.value[0].kind == "text"
          && after.data.value.hProperties.Some?
          && CarriesInstruction(after.data.value.hProperties.value, before.attributes, Flag(before))
          && (before.name == Some("plugin") ==>
                && after.data.value.hChildren.value[0].value == Some(PluginLabel(LabelValue(before)))
                && after.data.value.hProperties.value.Keys == {"href", "title"}
                && after.data.value.hProperties.value["href"] == PText(PluginHref))
          && (before.name == Some("search") ==>
                && after.data.value.hChildren.value[0].value == LabelValue(before)
                && after.data.value.hProperties.value.Keys == {"href", "className", "title"}
                && after.data.value.hProperties.value["href"] == PText(SearchHref)
                && after.data.value.hProperties.value["className"] == PText(SearchClass)))
  }

  /** The visitor's work on one node, children aside. */
  function Rewrite(n: Node): (r: Node)
    ensures RewriteStep(n, r)
    ensures r.children == n.children
  {
    var d := if n.data.Some? then n.data.value else NodeData(None, None, None, map[]);
    if n.name == Some("plugin") then
      n.(data := Some(d.(
        hName := Some("a"),
        hChildren := Some([TextNode(Some(PluginLabel(LabelValue(n))))]),
        hProperties := Some(map[
          "href" := PText(PluginHref),
          "title" := PInstruction(WithFlag(n.attributes, "plugin"))]))))
    else if n.name == Some("search") then
      n.(data := Some(d.(
        hName := Some("a"),
        hChildren := Some([TextNode(LabelValue(n))]),
        hProperties := Some(map[
          "href" := PText(SearchHref),
          "className" := PText(SearchClass),
          "title" := PInstruction(WithFlag(n.attributes, "search"))]))))
    else n
  }

  /** `remarkPlugin`'s transform: `visit` reaches the node and then each of
      its children, depth first. */
  function Transform(n: Node): (r: Node)
    ensures RewriteStep(n, r)
    ensures |r.children| == |n.children|
    decreases n, 1
  {
    Rewrite(n).(children := TransformAll(n.children))
  }

  function TransformAll(ns: seq<Node>): (r: seq<Node>)
    ensures |r| == |ns|
    ensures forall i :: 0 <= i < |ns| ==> r[i] == Transform(ns[i])
    decreases ns, 0
  {
    if ns == [] then [] else [Transform(ns[0])] + TransformAll(ns[1..])
  }

  // ---------------------------------------------------------------------------
  // Every node is visited

  /** The nodes of a tree in the order `visit` reaches them. */
  function Nodes(n: Node): seq<Node>
    decreases n, 1
  {
    [n] + NodesAll(n.children)
  }

  function NodesAll(ns: seq<Node>): seq<Node>
    decreases ns, 0
  {
    if ns == [] then [] else Nodes(ns[0]) + NodesAll(ns[1..])
  }

  lemma TransformAllAppend(a: seq<Node>, b: seq<Node>)
    ensures TransformAll(a + b) == TransformAll(a) + TransformAll(b)
  {
  }

  /** The transformed tree, node for node, is the original with each node
      transformed. */
  lemma {:induction false} NodesOfTransform(n: Node)
    ensures Nodes(Transform(n)) == TransformAll(Nodes(n))
    decreases n, 1
  {
    NodesAllOfTransform(n.children);
    TransformAllAppend([n], NodesAll(n.children));
  }

  lemma {:induction false} NodesAllOfTransform(ns: seq<Node>)
    ensures NodesAll(TransformAll(ns)) == TransformAll(NodesAll(ns))
    decreases ns, 0
  {
    if ns != [] {
      NodesOfTransform(ns[0]);
      NodesAllOfTransform(ns[1..]);
      assert TransformAll(ns)[1..] == TransformAll(ns[1..]);
      TransformAllAppend(Nodes(ns[0]), NodesAll(ns[1..]));
    }
  }

  /** Every node of the document, however deeply nested, is rewritten by the
      rule for its own name, and no node is added or lost. */
  lemma EveryNodeRewritten(t: Node)
    ensures |Nodes(Transform(t))| == |Nodes(t)|
    ensures forall i :: 0 <= i < |Nodes(t)| ==> RewriteStep(Nodes(t)[i], Nodes(Transform(t))[i])
  {
    NodesOfTransform(t);
  }

  /** Applying the transform a second time changes nothing. */
  lemma {:induction false} TransformIdempotent(n: Node)
    ensures Transform(Transform(n)) == Transform(n)
    decreases n, 1
  {
    TransformAllIdempotent(n.children);
    var t := Transform(n);
    assert t.children == TransformAll(n.children);
    assert LabelValue(t) == LabelValue(n);
  }

  lemma {:induction false} TransformAllIdempotent(ns: seq<Node>)
    ensures TransformAll(TransformAll(ns)) == TransformAll(ns)
    decreases ns, 0
  {
    if ns != [] {
      TransformIdempotent(ns[0]);
      TransformAllIdempotent(ns[1..]);
      assert TransformAll(ns)[1..] == TransformAll(ns[1..]);
    }
  }
}

=== FILE: display.dfy ===
/**
 How one stored result is shown in the list: its link target, its title with
 the path and `'Untitled'` fallbacks, and its snippet, stripped of tags and
 cut at 150 characters (src/GoogleSearch.tsx, `formatSearchResultBody` and
 the result list markup).
 */
module Display {
  import opened JsValues
  import opened Text

  /** The snippet length beyond which the body is cut. */
  const MaxSnippetLength: nat := 150

  /** `formatSearchResultBody(body)`: a missing, empty or non-string body
      shows nothing; otherwise the body without tags, cut to 150 characters
      and marked with `...` when it is longer than that. */
  function FormatSearchResultBody(body: Option<Json>): (r: string)
    ensures !(body.Some? && body.value.JStr? && body.value.s != "") ==> r == ""
    ensures body.Some? && body.value.JStr? && |StripHtmlTags(body.value.s)| <= MaxSnippetLength ==>
      r == StripHtmlTags(body.value.s)
    ensures body.Some? && body.value.JStr? && |StripHtmlTags(body.value.s)| > MaxSnippetLength ==>
      && |r| == MaxSnippetLength + 3
      && r[..MaxSnippetLength] == StripHtmlTags(body.value.s)[..MaxSnippetLength]
      && r[MaxSnippetLength..] == "..."
  {
    if !(body.Some? && body.value.JStr? && body.value.s != "") then ""
    else
      var clean := StripHtmlTags(body.value.s);
      if |clean| <= MaxSnippetLength then clean
      else clean[..MaxSnippetLength] + "..."
  }

  /** A shown snippet is never longer than 153 characters and never holds
      a tag. */
  lemma SnippetBoundedAndTagFree(body: Option<Json>)
    ensures |FormatSearchResultBody(body)| <= MaxSnippetLength + 3
    ensures NoTagLeft(FormatSearchResultBody(body))
  {
    if body.Some? && body.value.JStr? && body.value.s != "" {
      var clean := StripHtmlTags(body.value.s);
      StripLeavesNoTag(body.value.s);
      if |clean| > MaxSnippetLength {
        NoTagPrefixAndSuffix(clean, MaxSnippetLength, "...");
      }
    }
  }

  /** A body that is already plain text of at most 150 characters is shown
      as it is. */
  lemma ShortPlainBodyUnchanged(text: string)
    requires NoTagLeft(text) && |text| <= MaxSnippetLength
    ensures FormatSearchResultBody(Some(JStr(text))) == text
  {
    StripKeepsTagFree(text);
  }

  /** `result.title || result.path || 'Untitled'` */
  function DisplayTitle(result: Json): (r: Json)
    ensures Truthy(r)
    ensures Present(Get(result, "title")) ==> r == Get(result, "title").value
    ensures !Present(Get(result, "title")) && Present(Get(result, "path")) ==> r == Get(result, "path").value
    ensures !Present(Get(result, "title")) && !Present(Get(result, "path")) ==> r == JStr("Untitled")
  {
    Or(Or(Get(result, "title"), Get(result, "path")), Some(JStr("Untitled"))).value
  }

  /** One entry of the result list: link target, title and snippet. */
  datatype Entry = Entry(href: Json, title: Json, snippet: string)

  /** The entry shown for one stored object: it links to `result.path || '#'`,
      so a result without a usable path links nowhere rather than to an
      empty target. */
  function EntryOf(result: Json): (e: Entry)
    ensures Present(Get(result, "path")) ==> e.href == Get(result, "path").value
    ensures !Present(Get(result, "path")) ==> e.href == JStr("#")
    ensures e.title == DisplayTitle(result)
    ensures e.snippet == FormatSearchResultBody(Get(result, "body"))
    ensures Truthy(e.href) && Truthy(e.title)
    ensures |e.snippet| <= MaxSnippetLength + 3 && NoTagLeft(e.snippet)
  {
    SnippetBoundedAndTagFree(Get(result, "body"));
    Entry(Or(Get(result, "path"), Some(JStr("#"))).value, DisplayTitle(result), FormatSearchResultBody(Get(result, "body")))
  }

  /** The entries of the result list, built in one pass: a stored result that
      is not an object is skipped, every other one gives its entry. */
  function Entries(results: seq<Json>): (r: seq<Entry>)
    ensures |r| <= |results|
    ensures (forall i :: 0 <= i < |results| ==> IsObjectLike(results[i])) ==> |r| == |results|
    ensures forall e :: e in r ==> Truthy(e.href) && Truthy(e.title) && |e.snippet| <= MaxSnippetLength + 3 && NoTagLeft(e.snippet)
  {
    if results == [] then []
    else (if IsObjectLike(results[0]) then [EntryOf(results[0])] else []) + Entries(results[1..])
  }

  /** The list of two runs of results is the two lists in order. */
  lemma {:induction false} EntriesAppend(a: seq<Json>, b: seq<Json>)
    ensures Entries(a + b) == Entries(a) + Entries(b)
  {
    if a == [] {
      assert a + b == b;
    } else {
      var head := if IsObjectLike(a[0]) then [EntryOf(a[0])] else [];
      assert (a + b)[0] == a[0];
      assert (a + b)[1..] == a[1..] + b;
      EntriesAppend(a[1..], b);
      assert Entries(a + b) == head + Entries(a[1..] + b);
      assert Entries(a) == head + Entries(a[1..]);
      assert head + (Entries(a[1..]) + Entries(b)) == (head + Entries(a[1..])) + Entries(b);
    }
  }

  /** The one-pass list is the source's `filter(...).map(...)`: the objects
      among the stored results, in order, each shown by its entry. */
  lemma {:induction false} EntriesIsFilterThenMap(results: seq<Json>)
    ensures |Entries(results)| == |Filter(IsObjectLike, results)|
    ensures forall i :: 0 <= i < |Entries(results)| ==> Entries(results)[i] == EntryOf(Filter(IsObjectLike, results)[i])
  {
    if results != [] {
      var rest := results[1..];
      EntriesIsFilterThenMap(rest);
      assert results == [results[0]] + rest;
      if IsObjectLike(results[0]) {
        var entries, kept := Entries(results), Filter(IsObjectLike, results);
        assert entries == [EntryOf(results[0])] + Entries(rest);
        assert kept == [results[0]] + Filter(IsObjectLike, rest);
        forall i | 0 <= i < |entries|
          ensures entries[i] == EntryOf(kept[i])
        {
          if i > 0 {
            assert entries[i] == Entries(rest)[i - 1];
            assert kept[i] == Filter(IsObjectLike, rest)[i - 1];
          }
        }
      } else {
        assert Entries(results) == Entries(rest);
        assert Filter(IsObjectLike, results) == Filter(IsObjectLike, rest);
      }
    }
  }

  /** Results that are not objects never show: dropping them first changes
      nothing. */
  lemma EntriesIgnoreNonObjects(results: seq<Json>)
    ensures Entries(Filter(IsObjectLike, results)) == Entries(results)
  {
    var kept := Filter(IsObjectLike, results);
    FilterKeepsAll(IsObjectLike, kept);
    EntriesIsFilterThenMap(results);
    EntriesIsFilterThenMap(kept);
  }
}

=== FILE: js_values.dfy ===
/**
 The JavaScript values the plugin handles: parsed JSON data, with `undefined`
 written as `None`, and the handful of language operations the plugin applies
 to them (truthiness, property reads, `||`, `typeof`, `Array.isArray`,
 `Array.prototype.filter`).
 */
module JsValues {

  datatype Option<T> = None | Some(value: T)

  /** A JSON value as `response.json()` or `JSON.parse` returns it. A JSON text
      only denotes finite numbers, so a `real` stands for the double. */
  datatype Json =
    | JNull
    | JBool(b: bool)
    | JNum(n: real)
    | JStr(s: string)
    | JArr(items: seq<Json>)
    | JObj(fields: map<string, Json>)

  /** JavaScript truthiness: `null`, `false`, `0` and `''` are the falsy values. */
  predicate Truthy(v: Json) {
    match v
    case JNull => false
    case JBool(b) => b
    case JNum(n) => n != 0.0
    case JStr(s) => s != ""
    case JArr(_) => true
    case JObj(_) => true
  }

  /** Truthiness of a value that may be `undefined`. */
  predicate Present(o: Option<Json>) {
    o.Some? && Truthy(o.value)
  }

  /** `v.k` on a value that is not `null`: only objects carry the member names
      this plugin reads; on arrays and primitives the read gives `undefined`. */
  function Get(v: Json, k: string): Option<Json> {
    if v.JObj? && k in v.fields then Some(v.fields[k]) else None
  }

  /** `o?.k`: optional chaining stops at `null` and `undefined`. */
  function Chain(o: Option<Json>, k: string): Option<Json> {
    if o.Some? && !o.value.JNull? then Get(o.value, k) else None
  }

  /** `a || b` */
  function Or(a: Option<Json>, b: Option<Json>): Option<Json> {
    if Present(a) then a else b
  }

  /** `v && typeof v === 'object'`: arrays and objects, never `null`. */
  predicate IsObjectLike(v: Json) {
    v.JArr? || v.JObj?
  }

  /** `Array.isArray(o)` */
  predicate IsArray(o: Option<Json>) {
    o.Some? && o.value.JArr?
  }

  /** An object literal `{ k: o, ... }`: a member whose value is `undefined`
      is left out, which is how every later read of it behaves. */
  function With(m: map<string, Json>, k: string, o: Option<Json>): map<string, Json> {
    if o.Some? then m[k := o.value] else m
  }

  /** `Array.prototype.filter`: the elements satisfying `p`, in their order. */
  function Filter<T(!new)>(p: T -> bool, s: seq<T>): (r: seq<T>)
    ensures |r| <= |s|
    ensures forall i :: 0 <= i < |r| ==> p(r[i])
    ensures forall x :: x in r <==> x in s && p(x)
  {
    if s == [] then []
    else if p(s[0]) then [s[0]] + Filter(p, s[1..])
    else Filter(p, s[1..])
  }

  /** Filtering distributes over concatenation, which is what "in order" means. */
  lemma {:induction false} FilterAppend<T(!new)>(p: T -> bool, a: seq<T>, b: seq<T>)
    ensures Filter(p, a + b) == Filter(p, a) + Filter(p, b)
  {
    if a == [] {
      assert a + b == b;
    } else {
      assert (a + b)[0] == a[0];
      assert (a + b)[1..] == a[1..] + b;
      FilterAppend(p, a[1..], b);
    }
  }

  /** A filter every element passes keeps the sequence as it is. */
  lemma {:induction false} FilterKeepsAll<T(!new)>(p: T -> bool, s: seq<T>)
    requires forall i :: 0 <= i < |s| ==> p(s[i])
    ensures Filter(p, s) == s
  {
    if s != [] {
      FilterKeepsAll(p, s[1..]);
    }
  }

  /** `Array.prototype.map` with a callback that may throw (`None`): the
      first throwing element makes the whole call throw. */
  function TryMap<A, B>(f: A --> Option<B>, s: seq<A>): (r: Option<seq<B>>)
    requires forall i :: 0 <= i < |s| ==> f.requires(s[i])
    ensures r.Some? <==> forall i :: 0 <= i < |s| ==> f(s[i]).Some?
    ensures r.Some? ==> |r.value| == |s|
    ensures r.Some? ==> forall i :: 0 <= i < |s| ==> f(s[i]) == Some(r.value[i])
  {
    if s == [] then Some([])
    else
      var first := f(s[0]);
      var rest := TryMap(f, s[1..]);
      if first.None? || rest.None? then None else Some([first.value] + rest.value)
  }
}

=== FILE: normalize.dfy ===
/**
 One search attempt against one candidate endpoint: the request URL, the
 outcome of the HTTP exchange, and the shape sniffing that either yields the
 list of results to store or tells the caller to move on to the next
 candidate (src/GoogleSearch.tsx, `performSearch`).
 */
module Normalize {
  import opened JsValues
  import opened Text

  /** The four candidates, in the order they are tried. */
  datatype Endpoint = SearchApi | V3SearchApi | PagesApi | ElasticsearchApi

  const Endpoints: seq<Endpoint> := [SearchApi, V3SearchApi, PagesApi, ElasticsearchApi]

  /** The GET URL for a candidate, given the already URL-encoded query. */
  function RequestUrl(e: Endpoint, encoded: string): string {
    match e
    case SearchApi => "/_api/search?q=" + encoded + "&offset=0&limit=20"
    case V3SearchApi => "/_api/v3/search?q=" + encoded + "&offset=0&limit=20"
    case PagesApi => "/_api/pages?search=" + encoded + "&offset=0&limit=20"
    case ElasticsearchApi => "/_api/elasticsearch?q=" + encoded + "&from=0&size=20"
  }

  /** Different candidates never share a URL, whatever the encoded queries. */
  lemma RequestUrlsDistinct(e1: Endpoint, e2: Endpoint, x: string, y: string)
    requires e1 != e2
    ensures RequestUrl(e1, x) != RequestUrl(e2, y)
  {
    assert RequestUrl(e1, x)[6] != RequestUrl(e2, y)[6];
  }

  /** What one `fetch` gives: a rejected promise, or a response with its
      status, its `content-type` header (absent: `None`) and the outcome of
      `response.json()` (`None` when the body is not JSON and the promise
      rejects). */
  datatype Outcome =
    | TransportError
    | Response(status: int, contentType: Option<string>, body: Option<Json>)

  /** `response.ok` */
  predicate StatusOk(status: int) {
    200 <= status <= 299
  }

  /** `contentType && contentType.includes('application/json')` */
  predicate JsonContentType(ct: Option<string>) {
    ct.Some? && Contains(ct.value, "application/json")
  }

  // ---------------------------------------------------------------------------
  // Normalizing the `data.data` list of the first candidate

  /** `item && item.data && typeof item === 'object'` */
  predicate IsPageItem(item: Json) {
    IsObjectLike(item) && Present(Get(item, "data"))
  }

  /** `pathParts[pathParts.length - 1] || path || 'Untitled'` */
  function PageTitle(path: string): (r: string)
    ensures r != ""
    ensures path == "" ==> r == "Untitled"
    ensures path != "" && path[|path| - 1] == '/' ==> r == path
    ensures path != "" && path[|path| - 1] != '/' ==>
      && 0 < |r| <= |path|
      && r == path[|path| - |r|..]
      && (forall i :: 0 <= i < |r| ==> r[i] != '/')
      && (|r| < |path| ==> path[|path| - |r| - 1] == '/')
  {
    var last := LastSegment(path);
    if last != "" then last else if path != "" then path else "Untitled"
  }

  /** The object literal of a page item: the optional members, then `path`,
      `title`, `body` and a score of 1.0, which always win. */
  function PageObject(optional: map<string, Json>, path: string, title: string, body: Json): (r: Json)
    ensures Get(r, "path") == Some(JStr(path))
    ensures Get(r, "title") == Some(JStr(title))
    ensures title != "" ==> Present(Get(r, "title"))
    ensures Get(r, "body") == Some(body)
    ensures Get(r, "score") == Some(JNum(1.0))
  {
    assert "path"[0] != "title"[0] && "path"[0] != "body"[0] && "path"[0] != "score"[0];
    assert "title"[0] != "body"[0] && "title"[0] != "score"[0] && "body"[0] != "score"[0];
    JObj(optional["path" := JStr(path)]["title" := JStr(title)]["body" := body]["score" := JNum(1.0)])
  }

  /** `data.path || ''`, or `None` when a truthy `path` is not a string and
      `path.split('/')` throws. */
  function PagePath(page: Json): (r: Option<string>)
    ensures r.None? <==> Present(Get(page, "path")) && !Get(page, "path").value.JStr?
    ensures r.Some? ==> r.value == if Present(Get(page, "path")) then Get(page, "path").value.s else ""
  {
    var rawPath := Or(Get(page, "path"), Some(JStr("")));
    if rawPath.value.JStr? then Some(rawPath.value.s) else None
  }

  /** The members copied from the page when present: `_id` (falling back to
      `id`), `updatedAt`, and the creator's `name` or `username`. */
  function PageExtras(page: Json): map<string, Json> {
    var creator := Get(page, "creator");
    var withId := With(map[], "_id", Or(Get(page, "_id"), Get(page, "id")));
    var withUpdated := With(withId, "updatedAt", Get(page, "updatedAt"));
    With(withUpdated, "creator", Or(Chain(creator, "name"), Chain(creator, "username")))
  }

  /** The object built for one page item, or `None` when building it throws:
      `path.split('/')` needs a string, so a truthy `path` of any other kind
      makes the whole attempt fail. */
  function NormalizePage(item: Json): (r: Option<Json>)
    requires IsPageItem(item)
    ensures r.None? <==> Present(Get(Get(item, "data").value, "path")) && !Get(Get(item, "data").value, "path").value.JStr?
    ensures r.Some? ==>
      var page := Get(item, "data").value;
      var path := if Present(Get(page, "path")) then Get(page, "path").value.s else "";
      && Get(r.value, "path") == Some(JStr(path))
      && Get(r.value, "title") == Some(JStr(PageTitle(path)))
      && Get(r.value, "score") == Some(JNum(1.0))
      && Present(Get(r.value, "title"))
    ensures r.Some? ==>
      var snippet := Chain(Chain(Get(item, "meta"), "elasticSearchResult"), "snippet");
      Get(r.value, "body") == Some(if Present(snippet) then snippet.value else JStr(""))
  {
    var page := Get(item, "data").value;
    var path := PagePath(page);
    if path.None? then None
    else
      var snippet := Chain(Chain(Get(item, "meta"), "elasticSearchResult"), "snippet");
      var body := Or(snippet, Some(JStr(""))).value;
      assert body == if Present(snippet) then snippet.value else JStr("");
      Some(PageObject(PageExtras(page), path.value, PageTitle(path.value), body))
  }

  /** Maps `NormalizePage` over the kept items; one throwing item makes the
      whole `map` throw. */
  function NormalizePages(items: seq<Json>): (r: Option<seq<Json>>)
    requires forall i :: 0 <= i < |items| ==> IsPageItem(items[i])
    ensures r.Some? <==> forall i :: 0 <= i < |items| ==> NormalizePage(items[i]).Some?
  {
    var r := TryMap(NormalizePage, items);
    assert r.Some? <==> forall i :: 0 <= i < |items| ==> NormalizePage(items[i]).Some?;
    r
  }

  // ---------------------------------------------------------------------------
  // Normalizing the Elasticsearch `hits.hits` list

  /** The object built for one hit; `hit` is not `null`, since reading
      `hit._id` of a `null` hit throws. */
  function NormalizeHit(hit: Json): (r: Json)
    requires !hit.JNull?
    ensures r.JObj?
    ensures var source := Get(hit, "_source");
      && Get(r, "_id") == Get(hit, "_id")
      && Get(r, "path") == Or(Chain(source, "path"), Chain(source, "url"))
      && Get(r, "title") == Chain(source, "title")
      && Get(r, "body") == Or(Chain(source, "body"), Chain(source, "content"))
      && Get(r, "score") == Get(hit, "_score")
  {
    var source := Get(hit, "_source");
    var withId := With(map[], "_id", Get(hit, "_id"));
    var withPath := With(withId, "path", Or(Chain(source, "path"), Chain(source, "url")));
    var withTitle := With(withPath, "title", Chain(source, "title"));
    var withBody := With(withTitle, "body", Or(Chain(source, "body"), Chain(source, "content")));
    JObj(With(withBody, "score", Get(hit, "_score")))
  }

  /** The callback of `hits.map(...)`: reading a member of a `null` hit throws. */
  function MapHit(hit: Json): Option<Json> {
    if hit.JNull? then None else Some(NormalizeHit(hit))
  }

  /** `hits.map(...)`: one result per hit, in order; a `null` hit throws. */
  function NormalizeHits(hits: seq<Json>): (r: Option<seq<Json>>)
    ensures r.Some? <==> forall i :: 0 <= i < |hits| ==> !hits[i].JNull?
    ensures r.Some? ==> |r.value| == |hits|
    ensures r.Some? ==> forall i :: 0 <= i < |hits| ==> r.value[i] == NormalizeHit(hits[i])
  {
    var r := TryMap(MapHit, hits);
    assert r.Some? ==> forall i :: 0 <= i < |hits| ==> MapHit(hits[i]) == Some(r.value[i]);
    r
  }

  // ---------------------------------------------------------------------------
  // Shape sniffing per candidate

  /** `x.searchResult && Array.isArray(x.searchResult.data)` */
  predicate HasSearchResultData(body: Json) {
    Present(Get(body, "searchResult")) && IsArray(Get(Get(body, "searchResult").value, "data"))
  }

  /** The list at `body.k`, when `body.k` is an array. */
  function ListAt(body: Json, k: string): seq<Json>
    requires IsArray(Get(body, k))
  {
    Get(body, k).value.items
  }

  /** The list at `body.searchResult.data`. */
  function SearchResultList(body: Json): seq<Json>
    requires HasSearchResultData(body)
  {
    Get(Get(body, "searchResult").value, "data").value.items
  }

  /** The list a recognized shape yields, or `None` when the body matches none
      of the shapes this candidate probes (or reading it throws: every member
      read on a `null` body throws). */
  function Shape(e: Endpoint, body: Json): (r: Option<seq<Json>>)
    ensures body.JNull? ==> r.None?
  {
    if body.JNull? then None
    else
      match e
      case SearchApi =>
        if HasSearchResultData(body) then
          Some(Filter(IsObjectLike, SearchResultList(body)))
        else if IsArray(Get(body, "data")) then
          NormalizePages(Filter(IsPageItem, ListAt(body, "data")))
        else None
      case V3SearchApi =>
        if HasSearchResultData(body) then
          Some(Filter(IsObjectLike, SearchResultList(body)))
        else if IsArray(Get(body, "data")) then
          Some(Filter(IsObjectLike, ListAt(body, "data")))
        else None
      case PagesApi =>
        if IsArray(Get(body, "pages")) then
          Some(Filter(IsObjectLike, ListAt(body, "pages")))
        else if IsArray(Get(body, "data")) then
          Some(Filter(IsObjectLike, ListAt(body, "data")))
        else None
      case ElasticsearchApi =>
        var hits := Get(body, "hits");
        if Present(hits) && Present(Get(hits.value, "hits")) && IsArray(Get(hits.value, "hits")) then
          match NormalizeHits(ListAt(hits.value, "hits"))
          case None => None
          case Some(results) => Some(Filter(IsObjectLike, results))
        else None
  }

  /** The rule of one attempt: it yields results only for an ok response
      declared as JSON whose body parses and has a recognized shape; every
      other outcome sends the search on to the next candidate. */
  function Attempt(e: Endpoint, o: Outcome): (r: Option<seq<Json>>)
    ensures r.Some? ==> o.Response? && StatusOk(o.status) && JsonContentType(o.contentType) && o.body.Some?
    ensures r.Some? ==> Shape(e, o.body.value) == r
    ensures o.Response? && StatusOk(o.status) && JsonContentType(o.contentType) && o.body.Some?
      ==> r == Shape(e, o.body.value)
  {
    match o
    case TransportError => None
    case Response(status, contentType, body) =>
      if !StatusOk(status) then None
      else if !JsonContentType(contentType) then None
      else if body.None? then None
      else Shape(e, body.value)
  }

  /** Without `searchResult.data`, the first candidate normalizes the page
      items of a `data` array. */
  lemma SearchApiDataBranch(body: Json)
    requires !body.JNull? && !HasSearchResultData(body) && IsArray(Get(body, "data"))
    ensures Shape(SearchApi, body) == NormalizePages(Filter(IsPageItem, ListAt(body, "data")))
  {
  }

  /** When the first candidate recognizes a body: a `searchResult.data`
      array, or a `data` array whose kept page items all have a string or
      falsy `path` (any other `path` makes `split` throw). */
  lemma SearchApiRecognizedIff(body: Json)
    ensures Shape(SearchApi, body).Some? <==>
      !body.JNull? && (HasSearchResultData(body) ||
        (IsArray(Get(body, "data")) &&
          forall i :: 0 <= i < |Filter(IsPageItem, ListAt(body, "data"))| ==>
            NormalizePage(Filter(IsPageItem, ListAt(body, "data"))[i]).Some?))
  {
    if !body.JNull? && !HasSearchResultData(body) && IsArray(Get(body, "data")) {
      SearchApiDataBranch(body);
    } else if !body.JNull? && HasSearchResultData(body) {
      assert Shape(SearchApi, body).Some?;
    } else {
      assert Shape(SearchApi, body).None?;
    }
  }

  /** When the v3 and pages candidates recognize a body: an array under
      either of the two members each of them reads. */
  lemma ObjectListRecognizedIff(body: Json)
    ensures Shape(V3SearchApi, body).Some? <==>
      !body.JNull? && (HasSearchResultData(body) || IsArray(Get(body, "data")))
    ensures Shape(PagesApi, body).Some? <==>
      !body.JNull? && (IsArray(Get(body, "pages")) || IsArray(Get(body, "data")))
  {
  }

  /** When the Elasticsearch candidate recognizes a body: a truthy `hits`
      whose `hits` member is an array without a `null` hit. */
  lemma ElasticsearchRecognizedIff(body: Json)
    ensures Shape(ElasticsearchApi, body).Some? <==>
      && !body.JNull? && Present(Get(body, "hits"))
      && IsArray(Get(Get(body, "hits").value, "hits"))
      && forall i :: 0 <= i < |ListAt(Get(body, "hits").value, "hits")| ==> !ListAt(Get(body, "hits").value, "hits")[i].JNull?
  {
    var hits := Get(body, "hits");
    if !body.JNull? && Present(hits) && IsArray(Get(hits.value, "hits")) {
      var list := ListAt(hits.value, "hits");
      assert Present(Get(hits.value, "hits"));
      if NormalizeHits(list).Some? {
        assert Shape(ElasticsearchApi, body) == Some(Filter(IsObjectLike, NormalizeHits(list).value));
      } else {
        assert Shape(ElasticsearchApi, body).None?;
      }
    }
  }

  /** Which list wins when a body holds several: `searchResult.data` before
      `data` on the first two candidates, `pages` before `data` on the pages
      candidate. The winning list's objects are kept, in order. */
  lemma ShapePrecedence(body: Json)
    requires !body.JNull?
    ensures HasSearchResultData(body) ==>
      && Shape(SearchApi, body) == Some(Filter(IsObjectLike, SearchResultList(body)))
      && Shape(V3SearchApi, body) == Some(Filter(IsObjectLike, SearchResultList(body)))
    ensures !HasSearchResultData(body) && IsArray(Get(body, "data")) ==>
      Shape(V3SearchApi, body) == Some(Filter(IsObjectLike, ListAt(body, "data")))
    ensures IsArray(Get(body, "pages")) ==>
      Shape(PagesApi, body) == Some(Filter(IsObjectLike, ListAt(body, "pages")))
    ensures !IsArray(Get(body, "pages")) && IsArray(Get(body, "data")) ==>
      Shape(PagesApi, body) == Some(Filter(IsObjectLike, ListAt(body, "data")))
  {
  }

  /** The first candidate keeps only the items with a truthy `data` member,
      in order, and gives each the title, path and score the page rule
      prescribes. */
  lemma SearchApiPageShape(body: Json)
    requires !body.JNull? && !HasSearchResultData(body) && IsArray(Get(body, "data"))
    requires Shape(SearchApi, body).Some?
    ensures var kept := Filter(IsPageItem, ListAt(body, "data"));
      var r := Shape(SearchApi, body).value;
      && |r| == |kept|
      && forall i :: 0 <= i < |r| ==> NormalizePage(kept[i]) == Some(r[i])
  {
  }

  /** The Elasticsearch candidate maps hits one-to-one and in order: the
      object filter after the `map` keeps every mapped hit. */
  lemma ElasticsearchHitsOneToOne(body: Json)
    requires Shape(ElasticsearchApi, body).Some?
    ensures var hits := ListAt(Get(body, "hits").value, "hits");
      var r := Shape(ElasticsearchApi, body).value;
      && |r| == |hits|
      && forall i :: 0 <= i < |r| ==> r[i] == NormalizeHit(hits[i])
  {
    var hits := ListAt(Get(body, "hits").value, "hits");
    var mapped := NormalizeHits(hits).value;
    FilterKeepsAll(IsObjectLike, mapped);
  }

  /** A response carrying `body` that every candidate accepts as JSON. */
  function JsonResponse(body: Json): Outcome {
    Response(200, Some("application/json"), Some(body))
  }

  /** A recognized shape holding an empty list is a success with no results,
      on the three candidates that read a plain array member. */
  lemma EmptyListIsRecognized()
    ensures Attempt(SearchApi, JsonResponse(JObj(map["data" := JArr([])]))) == Some([])
    ensures Attempt(V3SearchApi, JsonResponse(JObj(map["data" := JArr([])]))) == Some([])
    ensures Attempt(PagesApi, JsonResponse(JObj(map["pages" := JArr([])]))) == Some([])
  {
    assert Contains("application/json", "application/json");
  }

  /** An Elasticsearch answer without hits is a success with no results. */
  lemma EmptyHitsAreRecognized()
    ensures Attempt(ElasticsearchApi, JsonResponse(JObj(map["hits" := JObj(map["hits" := JArr([])])]))) == Some([])
  {
    assert Contains("application/json", "application/json");
  }
}

=== FILE: resolver.dfy ===
/**
 The component resolvers (src/Hello.tsx, `enhancedGROWI` and `helloGROWI`):
 at render time an anchor's `title` is decoded as a render instruction, which
 picks the search box, the plugin widget, or the anchor as it was.

 `JSON.parse` of a plain-text title is the parameter `parse`, `None` where it
 throws; a title holding a stringified instruction decodes to exactly that
 instruction.
 */
module Resolver {
  import opened JsValues
  import opened Text
  import opened Directive

  /** A child as React hands it to a component. */
  datatype ReactChild = RText(s: string) | RNumber(n: int) | RBool(b: bool) | RNull | RElement

  /** `children`: absent, a single child, or an array of children. */
  datatype Children = NoChildren | One(child: ReactChild) | Many(items: seq<ReactChild>)

  /** What a resolver renders. */
  datatype View =
    | Passthrough(props: map<string, PropValue>, children: Children)
    | SearchBox(initialQuery: string)
    | PluginWidget(props: map<string, PropValue>, children: Children)

  function ScalarJson(v: Scalar): Json {
    match v
    case SStr(s) => JStr(s)
    case SBool(b) => JBool(b)
  }

  /** `JSON.parse(JSON.stringify(instruction))` */
  function InstructionJson(m: Instruction): Json {
    JObj(map k | k in m :: ScalarJson(m[k]))
  }

  /** The text of a property for `JSON.parse`. */
  function ParseProp(p: PropValue, parse: string -> Option<Json>): Option<Json> {
    match p
    case PText(t) => parse(t)
    case PInstruction(m) => Some(InstructionJson(m))
  }

  /** `JSON.parse(props.title || '{}')`: an absent or empty title reads as
      the empty object. */
  function DecodeTitle(props: map<string, PropValue>, parse: string -> Option<Json>): (r: Option<Json>)
    ensures "title" !in props ==> r == Some(JObj(map[]))
    ensures "title" in props && props["title"] == PText("") ==> r == Some(JObj(map[]))
    ensures "title" in props && props["title"].PText? && props["title"].text != "" ==> r == parse(props["title"].text)
    ensures "title" in props && props["title"].PInstruction? ==> r == Some(InstructionJson(props["title"].instr))
  {
    if "title" !in props || props["title"] == PText("") then Some(JObj(map[]))
    else ParseProp(props["title"], parse)
  }

  // ---------------------------------------------------------------------------
  // The initial query

  predicate ChildTruthy(c: ReactChild) {
    match c
    case RText(s) => s != ""
    case RNumber(n) => n != 0
    case RBool(b) => b
    case RNull => false
    case RElement => true
  }

  predicate IsTextual(c: ReactChild) {
    c.RText? || c.RNumber?
  }

  /** `String(c)` for a string or number child. */
  function ChildText(c: ReactChild): string
    requires IsTextual(c)
  {
    if c.RText? then c.s else IntText(c.n)
  }

  /** `children.filter(string or number).join('')` */
  function JoinTextual(cs: seq<ReactChild>): (r: string)
    ensures (forall i :: 0 <= i < |cs| ==> !IsTextual(cs[i])) ==> r == ""
  {
    if cs == [] then ""
    else if IsTextual(cs[0]) then ChildText(cs[0]) + JoinTextual(cs[1..])
    else JoinTextual(cs[1..])
  }

  /** The joined text of two runs of children is the two texts in order. */
  lemma {:induction false} JoinTextualAppend(a: seq<ReactChild>, b: seq<ReactChild>)
    ensures JoinTextual(a + b) == JoinTextual(a) + JoinTextual(b)
  {
    if a == [] {
      assert a + b == b;
    } else {
      assert (a + b)[0] == a[0];
      assert (a + b)[1..] == a[1..] + b;
      JoinTextualAppend(a[1..], b);
    }
  }

  /** The initial query the search box receives: the joined string and number
      children of an array, the text of a lone string or number, and the
      empty string for anything else. A lone `0` is falsy and so gives the
      empty string, not `"0"`. */
  function ExtractQuery(children: Children): (r: string)
    ensures children.NoChildren? ==> r == ""
    ensures children.One? && !IsTextual(children.child) ==> r == ""
    ensures children.One? && children.child.RText? ==> r == children.child.s
    ensures children.One? && children.child.RNumber? ==>
      r == (if children.child.n == 0 then "" else IntText(children.child.n))
    ensures children.Many? ==> r == JoinTextual(children.items)
  {
    match children
    case NoChildren => ""
    case One(c) => if ChildTruthy(c) && IsTextual(c) then ChildText(c) else ""
    case Many(cs) => JoinTextual(cs)
  }

  /** An array of children gives the same query as their text, one child at a
      time, concatenated in order, and children that are neither strings nor
      numbers add nothing. */
  lemma ManyChildrenQuery(a: seq<ReactChild>, b: seq<ReactChild>)
    ensures ExtractQuery(Many(a + [RElement] + b)) == ExtractQuery(Many(a)) + ExtractQuery(Many(b))
  {
    JoinTextualAppend(a, [RElement] + b);
    assert a + [RElement] + b == a + ([RElement] + b);
    assert ([RElement] + b)[1..] == b;
  }

  /** A lone child gives the same query as an array holding just that child,
      except a lone `0`, which the truthiness test turns into `''` where the
      array gives `"0"`. */
  lemma LoneChildAsArray(c: ReactChild)
    ensures c != RNumber(0) ==> ExtractQuery(One(c)) == ExtractQuery(Many([c]))
    ensures ExtractQuery(One(RNumber(0))) == "" && ExtractQuery(Many([RNumber(0)])) == "0"
  {
    assert [c][1..] == [];
    assert [RNumber(0)][1..] == [];
    assert NatText(0) == "0";
  }

  // ---------------------------------------------------------------------------
  // The resolvers

  /** `enhancedGROWI(Tag)` rendering an element with `props` and `children`:
      a decoded instruction with a truthy `search` member selects the search
      box; only then is `plugin` looked at; anything else, including a title
      that does not parse or parses to `null`, renders the anchor as it was.
      Members are read as own members of an object only: this is the
      corrected reading of the instruction. */
  function EnhancedGrowi(props: map<string, PropValue>, children: Children, parse: string -> Option<Json>): (v: View)
    ensures DecodeTitle(props, parse).None? ==> v == Passthrough(props, children)
    ensures v.SearchBox? <==> DecodeTitle(props, parse).Some? && Present(Get(DecodeTitle(props, parse).value, "search"))
    ensures v.SearchBox? ==> v.initialQuery == ExtractQuery(children)
    ensures v.PluginWidget? <==>
      DecodeTitle(props, parse).Some?
      && !Present(Get(DecodeTitle(props, parse).value, "search"))
      && Present(Get(DecodeTitle(props, parse).value, "plugin"))
    ensures v.PluginWidget? ==> v == PluginWidget(props, children)
    ensures v.Passthrough? ==> v == Passthrough(props, children)
  {
    match DecodeTitle(props, parse)
    case None => Passthrough(props, children)
    case Some(instruction) =>
      if instruction.JNull? then Passthrough(props, children)
      else if Present(Get(instruction, "search")) then SearchBox(ExtractQuery(children))
      else if Present(Get(instruction, "plugin")) then PluginWidget(props, children)
      else Passthrough(props, children)
  }

  /** A member read as JavaScript performs it on any non-`null` value: the
      value's own members, and for a string also the methods every string
      inherits, of which `search` is one (`String.prototype.search`), a
      function and therefore truthy. */
  predicate MemberTruthy(v: Json, k: string) {
    if v.JStr? then k == "search" || Present(Get(v, k)) else Present(Get(v, k))
  }

  /** `enhancedGROWI` as written: `parsedTitle.search` is an ordinary member
      read, so a title that parses to a string selects the search box. */
  function EnhancedGrowiAsWritten(props: map<string, PropValue>, children: Children, parse: string -> Option<Json>): (v: View)
    ensures DecodeTitle(props, parse).None? || !DecodeTitle(props, parse).value.JStr? ==>
      v == EnhancedGrowi(props, children, parse)
    ensures DecodeTitle(props, parse).Some? && DecodeTitle(props, parse).value.JStr? ==>
      v == SearchBox(ExtractQuery(children))
  {
    match DecodeTitle(props, parse)
    case None => Passthrough(props, children)
    case Some(instruction) =>
      if instruction.JNull? then Passthrough(props, children)
      else if MemberTruthy(instruction, "search") then SearchBox(ExtractQuery(children))
      else if MemberTruthy(instruction, "plugin") then PluginWidget(props, children)
      else Passthrough(props, children)
  }

  /** An ordinary link whose title is the JSON text of a string literal (as
      `[see](/page "\"quoted\"")` produces) is taken for a search directive
      by the code as written, and left alone by the corrected resolver. */
  lemma QuotedTitleSelectsSearchBox(parse: string -> Option<Json>, children: Children)
    requires parse("\"quoted\"") == Some(JStr("quoted"))
    ensures var props := map["href" := PText("/page"), "title" := PText("\"quoted\"")];
      && EnhancedGrowiAsWritten(props, children, parse) == SearchBox(ExtractQuery(children))
      && EnhancedGrowi(props, children, parse) == Passthrough(props, children)
  {
  }

  /** The code as written and the corrected resolver part ways on exactly
      the titles that decode to a string. */
  lemma AsWrittenDiffersOnlyOnStrings(props: map<string, PropValue>, children: Children, parse: string -> Option<Json>)
    ensures EnhancedGrowiAsWritten(props, children, parse) != EnhancedGrowi(props, children, parse) <==>
      DecodeTitle(props, parse).Some? && DecodeTitle(props, parse).value.JStr?
  {
  }

  /** `helloGROWI(Tag)`: `JSON.parse(props.title)` with no default, so an
      absent title throws; only `plugin` is looked at. */
  function HelloGrowi(props: map<string, PropValue>, children: Children, parse: string -> Option<Json>): (v: View)
    ensures "title" !in props ==> v == Passthrough(props, children)
    ensures v.PluginWidget? <==>
      "title" in props && ParseProp(props["title"], parse).Some?
      && Present(Get(ParseProp(props["title"], parse).value, "plugin"))
    ensures !v.SearchBox?
    ensures v == PluginWidget(props, children) || v == Passthrough(props, children)
  {
    if "title" !in props then Passthrough(props, children)
    else
      match ParseProp(props["title"], parse)
      case None => Passthrough(props, children)
      case Some(instruction) =>
        if instruction.JNull? then Passthrough(props, children)
        else if Present(Get(instruction, "plugin")) then PluginWidget(props, children)
        else Passthrough(props, children)
  }

  // ---------------------------------------------------------------------------
  // From directive to rendered component

  /** The children React hands to the anchor the host builds from the
      markup children: nothing, the lone child itself, or an array. Text nodes
      become strings; other nodes become elements. */
  function HostChild(n: Node): ReactChild {
    if n.kind == "text" then (if n.value.Some? then RText(n.value.value) else RNull) else RElement
  }

  function HostChildren(hs: seq<Node>): Children {
    if |hs| == 0 then NoChildren
    else if |hs| == 1 then One(HostChild(hs[0]))
    else Many(seq(|hs|, i requires 0 <= i < |hs| => HostChild(hs[i])))
  }

  /** The properties and children of the anchor a transformed directive
      becomes. */
  function Props(n: Node): map<string, PropValue> {
    if n.data.Some? && n.data.value.hProperties.Some? then n.data.value.hProperties.value else map[]
  }

  function ChildrenOf(n: Node): Children {
    if n.data.Some? && n.data.value.hChildren.Some? then HostChildren(n.data.value.hChildren.value) else NoChildren
  }

  /** `:search[q]{...}` renders the search box with initial query `q`
      exactly, whatever the attributes: the text child the transform writes
      reads back as the directive's argument. */
  lemma SearchDirectiveRendersSearchBox(n: Node, q: string, parse: string -> Option<Json>)
    requires n.name == Some("search") && LabelValue(n) == Some(q)
    ensures var out := Transform(n);
      EnhancedGrowi(Props(out), ChildrenOf(out), parse) == SearchBox(q)
  {
    var out := Transform(n);
    var instr := Props(out)["title"].instr;
    assert InstructionJson(instr).fields["search"] == JBool(true);
  }

  /** `:plugin[x]{...}` renders the plugin widget exactly when its attributes
      carry no non-empty `search`; such an attribute turns it into a search
      box, since `search` is checked first. */
  lemma PluginDirectiveRendering(n: Node, parse: string -> Option<Json>)
    requires n.name == Some("plugin")
    ensures var out := Transform(n);
      var v := EnhancedGrowi(Props(out), ChildrenOf(out), parse);
      && (v.PluginWidget? <==> !("search" in n.attributes && n.attributes["search"] != ""))
      && (v.SearchBox? <==> "search" in n.attributes && n.attributes["search"] != "")
  {
    var out := Transform(n);
    assert CarriesInstruction(Props(out), n.attributes, "plugin");
    InstructionSelects(Props(out), n.attributes, "plugin", parse);
  }

  /** `helloGROWI` renders the plugin widget for every `plugin` directive,
      and never for a `search` directive unless it has a non-empty `plugin`
      attribute. */
  lemma HelloRendersPluginDirectives(n: Node, parse: string -> Option<Json>)
    requires IsDirective(n)
    ensures var out := Transform(n);
      HelloGrowi(Props(out), ChildrenOf(out), parse).PluginWidget? <==>
        n.name == Some("plugin") || ("plugin" in n.attributes && n.attributes["plugin"] != "")
  {
    var out := Transform(n);
    assert CarriesInstruction(Props(out), n.attributes, Flag(n));
    InstructionSelects(Props(out), n.attributes, Flag(n), parse);
  }

  /** Which members of a decoded instruction are truthy: the directive's
      own flag, and an attribute of the other name exactly when its string is
      not empty. */
  lemma InstructionSelects(props: map<string, PropValue>, attributes: map<string, string>, flag: string, parse: string -> Option<Json>)
    requires CarriesInstruction(props, attributes, flag)
    ensures var j := DecodeTitle(props, parse);
      && j.Some? && j.value.JObj?
      && ParseProp(props["title"], parse) == j
      && (Present(Get(j.value, "plugin")) <==> flag == "plugin" || ("plugin" in attributes && attributes["plugin"] != ""))
      && (Present(Get(j.value, "search")) <==> flag == "search" || ("search" in attributes && attributes["search"] != ""))
  {
    var j := InstructionJson(props["title"].instr);
    if flag != "plugin" {
      if "plugin" in attributes {
        assert j.fields["plugin"] == JStr(attributes["plugin"]);
      } else {
        assert "plugin" !in j.fields;
      }
    }
    if flag != "search" {
      if "search" in attributes {
        assert j.fields["search"] == JStr(attributes["search"]);
      } else {
        assert "search" !in j.fields;
      }
    }
  }

  /** A decoded instruction keeps every attribute of the directive, as a
      string, and the directive's own flag as `true`. */
  lemma InstructionRoundTrip(n: Node, parse: string -> Option<Json>)
    requires IsDirective(n)
    ensures var out := Transform(n);
      var decoded := DecodeTitle(Props(out), parse);
      && decoded.Some? && decoded.value.JObj?
      && decoded.value.fields.Keys == n.attributes.Keys + {Flag(n)}
      && decoded.value.fields[Flag(n)] == JBool(true)
      && forall k :: k in n.attributes && k != Flag(n) ==> decoded.value.fields[k] == JStr(n.attributes[k])
  {
  }

  /** A title that does not parse renders the anchor as it was, in both
      resolvers. */
  lemma UnparsableTitleFallsBack(props: map<string, PropValue>, children: Children, parse: string -> Option<Json>)
    requires "title" in props && props["title"].PText? && props["title"].text != ""
    requires parse(props["title"].text).None?
    ensures EnhancedGrowi(props, children, parse) == Passthrough(props, children)
    ensures EnhancedGrowiAsWritten(props, children, parse) == Passthrough(props, children)
    ensures HelloGrowi(props, children, parse) == Passthrough(props, children)
  {
  }
}

=== FILE: search.dfy ===
/**
 The search box's session state and its two actions: "run search for a
 query", which probes the candidates in order and stores the first
 recognized result list (or the demonstration list), and "I'm Feeling Lucky"
 (src/GoogleSearch.tsx, `performSearch` and `handleLuckySearch`).

 The network and `encodeURIComponent` are parameters: `fetch` maps a request
 URL to its outcome, and `encode` gives `None` where `encodeURIComponent`
 throws.
 */
module Search {
  import opened JsValues
  import opened Text
  import opened Normalize

  /** The state one search box owns. */
  datatype Session = Session(query: string, results: seq<Json>, isLoading: bool, hasSearched: bool)

  /** A session as the component first renders it. */
  function InitialSession(initialQuery: string): Session {
    Session(initialQuery, [], false, false)
  }

  /** The state a completed search leaves, and the URLs it fetched, in order. */
  datatype Run = Run(session: Session, requests: seq<string>)

  /** The outcome of probing a list of candidates: the first recognized
      result list, if any, and how many candidates were requested. */
  datatype Probed = Probed(found: Option<seq<Json>>, tried: nat)

  /** The URLs of the first `n` candidates, in order. */
  function Requested(eps: seq<Endpoint>, encoded: string, n: nat): seq<string>
    requires n <= |eps|
  {
    seq(n, i requires 0 <= i < n => RequestUrl(eps[i], encoded))
  }

  /** What one candidate yields for this query, through `fetch`. */
  function AttemptAt(e: Endpoint, encoded: string, fetch: string -> Outcome): Option<seq<Json>> {
    Attempt(e, fetch(RequestUrl(e, encoded)))
  }

  /** Tries `eps` in order and stops at the first recognized shape;
      `attempt` gives what each candidate yields, and asking for it is what
      requests the candidate's URL. */
  function Probe(eps: seq<Endpoint>, attempt: Endpoint -> Option<seq<Json>>): (r: Probed)
    ensures r.tried <= |eps|
    ensures forall i :: 0 <= i < r.tried - 1 ==> attempt(eps[i]).None?
    ensures r.found.Some? ==> r.tried > 0 && r.found == attempt(eps[r.tried - 1])
    ensures r.found.None? <==> forall i :: 0 <= i < |eps| ==> attempt(eps[i]).None?
    ensures r.found.None? ==> r.tried == |eps|
  {
    if eps == [] then Probed(None, 0)
    else if attempt(eps[0]).Some? then Probed(attempt(eps[0]), 1)
    else
      var rest := Probe(eps[1..], attempt);
      Probed(rest.found, rest.tried + 1)
  }

  /** The candidates of one search, each asked through `fetch`. */
  function Attempts(encoded: string, fetch: string -> Outcome): Endpoint -> Option<seq<Json>> {
    e => AttemptAt(e, encoded, fetch)
  }

  /** The three demonstration entries shown when every candidate fails. */
  function DemoResults(query: string, encoded: string): seq<Json> {
    [ JObj(map[
        "_id" := JStr("demo-1"),
        "path" := JStr("/search-demo/" + encoded),
        "title" := JStr("Demo: \"" + query + "\" の検索結果"),
        "body" := JStr("これはデモ用の検索結果です。実際のGROWI環境では、\"" + query + "\"に関連するページが表示されます。"),
        "score" := JNum(1.0)]),
      JObj(map[
        "_id" := JStr("demo-2"),
        "path" := JStr("/getting-started"),
        "title" := JStr("GROWIの使い方"),
        "body" := JStr("GROWIでの基本的な操作方法やMarkdown記法について説明しています。"),
        "score" := JNum(0.8)]),
      JObj(map[
        "_id" := JStr("demo-3"),
        "path" := JStr("/plugins"),
        "title" := JStr("プラグイン開発ガイド"),
        "body" := JStr("GROWIプラグインの開発方法とベストプラクティスについて解説します。"),
        "score" := JNum(0.6)]) ]
  }

  /** The single entry stored when the search fails outside every
      per-candidate barrier. */
  const ErrorEntry: Json := JObj(map[
    "_id" := JStr("error"),
    "path" := JStr("#"),
    "title" := JStr("検索機能を準備中です"),
    "body" := JStr("GROWI検索APIの設定を確認してください。現在はデモモードで動作しています。"),
    "score" := JNum(0.0)])

  /** "Run search for `q`" from session `s`. A blank query changes nothing.
      Otherwise the candidates are probed in order; when none is recognized
      the demonstration list is stored. When `encodeURIComponent` throws,
      every attempt throws before its request and so does building the
      demonstration list, which lands in the outer barrier: the error entry
      is stored. Either way the search ends not loading and marked searched. */
  function PerformSearch(s: Session, q: string, encode: string -> Option<string>, fetch: string -> Outcome): (r: Run)
    ensures AllSpace(q) ==> r == Run(s, [])
    ensures !AllSpace(q) ==>
      && r.session.hasSearched
      && !r.session.isLoading
      && r.session.query == s.query
    ensures |r.requests| <= |Endpoints|
    ensures encode(q).Some? ==>
      forall i :: 0 <= i < |r.requests| ==> r.requests[i] == RequestUrl(Endpoints[i], encode(q).value)
  {
    TrimEmptyIffAllSpace(q);
    if Trim(q) == "" then Run(s, [])
    else
      match encode(q)
      case None => Run(Session(s.query, [ErrorEntry], false, true), [])
      case Some(encoded) =>
        var probed := Probe(Endpoints, Attempts(encoded, fetch));
        var results := if probed.found.Some? then probed.found.value else DemoResults(q, encoded);
        Run(Session(s.query, results, false, true), Requested(Endpoints, encoded, probed.tried))
  }

  /** The first candidate with a recognized shape fixes the results, and no
      later candidate is requested. */
  lemma FirstRecognizedWins(s: Session, q: string, encode: string -> Option<string>, fetch: string -> Outcome, k: nat)
    requires !AllSpace(q) && encode(q).Some?
    requires k < |Endpoints|
    requires AttemptAt(Endpoints[k], encode(q).value, fetch).Some?
    requires forall j :: 0 <= j < k ==> AttemptAt(Endpoints[j], encode(q).value, fetch).None?
    ensures var r := PerformSearch(s, q, encode, fetch);
      && r.session.results == AttemptAt(Endpoints[k], encode(q).value, fetch).value
      && |r.requests| == k + 1
  {
    var encoded := encode(q).value;
    ProbeStopsAtFirst(Endpoints, Attempts(encoded, fetch), k);
  }

  /** Probing stops at the first candidate that yields a result. */
  lemma ProbeStopsAtFirst(eps: seq<Endpoint>, attempt: Endpoint -> Option<seq<Json>>, k: nat)
    requires k < |eps| && attempt(eps[k]).Some?
    requires forall j :: 0 <= j < k ==> attempt(eps[j]).None?
    ensures Probe(eps, attempt).found == attempt(eps[k])
    ensures Probe(eps, attempt).tried == k + 1
  {
    assert Probe(eps, attempt).found.Some?;
  }

  /** When every candidate is skipped, all four are requested, in order, and
      the demonstration list is stored. */
  lemma ExhaustionGivesDemo(s: Session, q: string, encode: string -> Option<string>, fetch: string -> Outcome)
    requires !AllSpace(q) && encode(q).Some?
    requires forall j :: 0 <= j < |Endpoints| ==> AttemptAt(Endpoints[j], encode(q).value, fetch).None?
    ensures var r := PerformSearch(s, q, encode, fetch);
      && r.session.results == DemoResults(q, encode(q).value)
      && r.requests == [
        RequestUrl(SearchApi, encode(q).value), RequestUrl(V3SearchApi, encode(q).value),
        RequestUrl(PagesApi, encode(q).value), RequestUrl(ElasticsearchApi, encode(q).value)]
  {
    var encoded := encode(q).value;
    ExhaustedProbe(encoded, fetch);
    TrimEmptyIffAllSpace(q);
    assert PerformSearch(s, q, encode, fetch).requests == Requested(Endpoints, encoded, 4);
  }

  /** A probe in which every candidate fails tries all four. */
  lemma ExhaustedProbe(encoded: string, fetch: string -> Outcome)
    requires forall j :: 0 <= j < |Endpoints| ==> AttemptAt(Endpoints[j], encoded, fetch).None?
    ensures Probe(Endpoints, Attempts(encoded, fetch)) == Probed(None, |Endpoints|)
  {
    var attempt := Attempts(encoded, fetch);
    assert forall i :: 0 <= i < |Endpoints| ==> attempt(Endpoints[i]).None?;
  }

  /** The demonstration list: `demo-1`, `demo-2`, `demo-3` scored 1.0, 0.8
      and 0.6, and the first title holds the query verbatim. */
  lemma DemoResultsShape(q: string, encoded: string)
    ensures var d := DemoResults(q, encoded);
      && |d| == 3
      && Get(d[0], "_id") == Some(JStr("demo-1")) && Get(d[0], "score") == Some(JNum(1.0))
      && Get(d[0], "path") == Some(JStr("/search-demo/" + encoded))
      && Get(d[1], "_id") == Some(JStr("demo-2")) && Get(d[1], "score") == Some(JNum(0.8))
      && Get(d[2], "_id") == Some(JStr("demo-3")) && Get(d[2], "score") == Some(JNum(0.6))
      && Get(d[0], "title").Some? && Get(d[0], "title").value.JStr?
      && Contains(Get(d[0], "title").value.s, q)
  {
    var title := "Demo: \"" + q + "\" の検索結果";
    assert title == "Demo: \"" + (q + "\" の検索結果");
    SuffixContains("Demo: \"", q, "\" の検索結果");
  }

  /** Only the responses to the URLs actually requested matter: a network
      that answers those the same way yields the same search. This is what
      "no later candidate is consulted" means. */
  lemma OnlyRequestedUrlsMatter(s: Session, q: string, encode: string -> Option<string>,
                                fetch1: string -> Outcome, fetch2: string -> Outcome)
    requires forall u :: u in PerformSearch(s, q, encode, fetch1).requests ==> fetch1(u) == fetch2(u)
    ensures PerformSearch(s, q, encode, fetch2) == PerformSearch(s, q, encode, fetch1)
  {
    TrimEmptyIffAllSpace(q);
    if Trim(q) != "" && encode(q).Some? {
      var encoded := encode(q).value;
      var a1 := Attempts(encoded, fetch1);
      var a2 := Attempts(encoded, fetch2);
      var requests := PerformSearch(s, q, encode, fetch1).requests;
      forall i | 0 <= i < Probe(Endpoints, a1).tried
        ensures a1(Endpoints[i]) == a2(Endpoints[i])
      {
        assert requests[i] == RequestUrl(Endpoints[i], encoded);
        assert requests[i] in requests;
      }
      ProbeOnlyRequested(Endpoints, a1, a2);
    }
  }

  lemma {:induction false} ProbeOnlyRequested(eps: seq<Endpoint>, a1: Endpoint -> Option<seq<Json>>, a2: Endpoint -> Option<seq<Json>>)
    requires forall i :: 0 <= i < Probe(eps, a1).tried ==> a1(eps[i]) == a2(eps[i])
    ensures Probe(eps, a2) == Probe(eps, a1)
  {
    if eps != [] {
      assert a1(eps[0]) == a2(eps[0]);
      if a1(eps[0]).None? {
        assert forall i :: 0 <= i < Probe(eps[1..], a1).tried ==> eps[1..][i] == eps[i + 1];
        ProbeOnlyRequested(eps[1..], a1, a2);
      }
    }
  }

  /** When `encodeURIComponent` throws, nothing is requested and the single
      error entry is stored. */
  lemma EncodeFailureGivesErrorEntry(s: Session, q: string, encode: string -> Option<string>, fetch: string -> Outcome)
    requires !AllSpace(q) && encode(q).None?
    ensures var r := PerformSearch(s, q, encode, fetch);
      && r.requests == []
      && r.session.results == [ErrorEntry]
  {
    TrimEmptyIffAllSpace(q);
  }

  /** No URL is requested twice in one search: each candidate is asked at
      most once and no two candidates share a URL. */
  lemma NoUrlRequestedTwice(s: Session, q: string, encode: string -> Option<string>, fetch: string -> Outcome)
    ensures var requests := PerformSearch(s, q, encode, fetch).requests;
      forall i, j :: 0 <= i < j < |requests| ==> requests[i] != requests[j]
  {
    TrimEmptyIffAllSpace(q);
    if !AllSpace(q) && encode(q).Some? {
      var encoded := encode(q).value;
      RequestedDistinct(encoded, Probe(Endpoints, Attempts(encoded, fetch)).tried);
    }
  }

  lemma RequestedDistinct(encoded: string, n: nat)
    requires n <= |Endpoints|
    ensures forall i, j :: 0 <= i < j < n ==> Requested(Endpoints, encoded, n)[i] != Requested(Endpoints, encoded, n)[j]
  {
    forall i, j | 0 <= i < j < n
      ensures Requested(Endpoints, encoded, n)[i] != Requested(Endpoints, encoded, n)[j]
    {
      RequestUrlsDistinct(Endpoints[i], Endpoints[j], encoded, encoded);
    }
  }

  /** A recognized empty list on the first candidate is a success: no result
      and no demonstration entry. */
  lemma EmptyShapeIsSuccess(s: Session, q: string, encode: string -> Option<string>, fetch: string -> Outcome)
    requires !AllSpace(q) && encode(q).Some?
    requires fetch(RequestUrl(SearchApi, encode(q).value)) == JsonResponse(JObj(map["data" := JArr([])]))
    ensures PerformSearch(s, q, encode, fetch).session.results == []
    ensures PerformSearch(s, q, encode, fetch).requests == [RequestUrl(SearchApi, encode(q).value)]
  {
    EmptyListIsRecognized();
    FirstRecognizedWins(s, q, encode, fetch, 0);
  }

  // ---------------------------------------------------------------------------
  // I'm Feeling Lucky

  /** What one click of "I'm Feeling Lucky" did: opened a path in a new tab
      (the first result's `path`, possibly `undefined`), or ran a search and
      opened nothing. */
  datatype LuckyClick =
    | Opened(target: Option<Json>)
    | Searched(run: Run)

  /** The click opens the first stored result when there is one; otherwise it
      runs a search for the current query and does not open anything when it
      completes. */
  function FeelingLucky(s: Session, encode: string -> Option<string>, fetch: string -> Outcome): (c: LuckyClick)
    ensures c.Opened? <==> |s.results| > 0
    ensures c.Opened? ==> c.target == Get(s.results[0], "path")
    ensures c.Searched? ==> c.run == PerformSearch(s, s.query, encode, fetch)
    ensures c.Searched? ==> c.run.session.query == s.query
    ensures c.Searched? && AllSpace(s.query) ==> c.run.session == s
  {
    if |s.results| > 0 then Opened(Get(s.results[0], "path"))
    else Searched(PerformSearch(s, s.query, encode, fetch))
  }

  /** The button is enabled (src/GoogleSearch.tsx, line 310) unless a
      search is running, or no search has run yet and nothing is stored. */
  predicate LuckyEnabled(s: Session) {
    !s.isLoading && (s.hasSearched || |s.results| > 0)
  }

  /** Before any search the button is disabled, so a click on a fresh
      session cannot happen. */
  lemma LuckyDisabledBeforeFirstSearch(q: string)
    ensures !LuckyEnabled(InitialSession(q))
  {
  }

  /** A non-blank initial query is searched as the box mounts, and that
      search enables the button whatever it finds. */
  lemma MountSearchEnablesLucky(q: string, encode: string -> Option<string>, fetch: string -> Outcome)
    requires !AllSpace(q)
    ensures LuckyEnabled(PerformSearch(InitialSession(q), q, encode, fetch).session)
  {
  }

  /** After a search that stored an empty list, with every candidate now
      failing: the enabled button first runs a search, which stores the
      demonstration list, and the next click opens its first entry. */
  lemma LuckyTwiceOpensDemo(s: Session, q: string, encode: string -> Option<string>, fetch: string -> Outcome)
    requires s.hasSearched && !s.isLoading && s.results == [] && s.query == q
    requires !AllSpace(q) && encode(q).Some?
    requires forall j :: 0 <= j < |Endpoints| ==> AttemptAt(Endpoints[j], encode(q).value, fetch).None?
    ensures LuckyEnabled(s)
    ensures var first := FeelingLucky(s, encode, fetch);
      && first.Searched?
      && LuckyEnabled(first.run.session)
      && FeelingLucky(first.run.session, encode, fetch) == Opened(Some(JStr("/search-demo/" + encode(q).value)))
  {
    var first := FeelingLucky(s, encode, fetch);
    ExhaustionGivesDemo(s, q, encode, fetch);
    DemoResultsShape(q, encode(q).value);
    assert first.run.session.results == DemoResults(q, encode(q).value);
  }
}

=== FILE: text.dfy ===
/**
 String operations the plugin applies: `String.prototype.trim` (only to decide
 blankness), `includes`, the last segment of `split('/')`, the global tag
 replace `html.replace(/<[^>]*>/g, '')`, and `String(n)` for integers.
 Strings are sequences of Unicode scalar values.
 */
module Text {
  import opened JsValues

  // ---------------------------------------------------------------------------
  // Whitespace and trim

  /** The ECMAScript WhiteSpace and LineTerminator code points: exactly the
      characters `String.prototype.trim` removes from both ends. */
  predicate IsJsSpace(c: char) {
    || c == '\t' || c == '\n' || c == '\U{000B}' || c == '\U{000C}' || c == '\r'
    || c == ' ' || c == '\U{00A0}' || c == '\U{1680}'
    || ('\U{2000}' <= c <= '\U{200A}')
    || c == '\U{2028}' || c == '\U{2029}' || c == '\U{202F}' || c == '\U{205F}'
    || c == '\U{3000}' || c == '\U{FEFF}'
  }

  /** Every character of `s` is whitespace (the empty string included). */
  predicate AllSpace(s: string) {
    forall i :: 0 <= i < |s| ==> IsJsSpace(s[i])
  }

  /** Drops leading whitespace: the result is the suffix of `s` that starts at
      its first non-whitespace character. */
  function TrimStart(s: string): (r: string)
    ensures |r| <= |s| && r == s[|s| - |r|..]
    ensures forall i :: 0 <= i < |s| - |r| ==> IsJsSpace(s[i])
    ensures r == [] || !IsJsSpace(r[0])
  {
    if s != [] && IsJsSpace(s[0]) then
      var rest := s[1..];
      var r := TrimStart(rest);
      assert forall i :: 0 < i < |s| ==> s[i] == rest[i - 1];
      r
    else s
  }

  /** Drops trailing whitespace: the result is the prefix of `s` that ends at
      its last non-whitespace character. */
  function TrimEnd(s: string): (r: string)
    ensures |r| <= |s| && r == s[..|r|]
    ensures forall i :: |r| <= i < |s| ==> IsJsSpace(s[i])
    ensures r == [] || !IsJsSpace(r[|r| - 1])
  {
    if s != [] && IsJsSpace(s[|s| - 1]) then TrimEnd(s[..|s| - 1]) else s
  }

  /** `s.trim()` */
  function Trim(s: string): string {
    TrimEnd(TrimStart(s))
  }

  /** `!s.trim()` holds exactly for the strings made of whitespace only. */
  lemma TrimEmptyIffAllSpace(s: string)
    ensures Trim(s) == [] <==> AllSpace(s)
  {
    var t := TrimStart(s);
    if t != [] {
      assert !IsJsSpace(t[0]);
      assert s[|s| - |t|] == t[0];
    }
  }

  // ---------------------------------------------------------------------------
  // Substrings and path segments

  /** `s.includes(sub)` */
  predicate Contains(s: string, sub: string) {
    sub <= s || (s != [] && Contains(s[1..], sub))
  }

  /** The last element of `p.split('/')`: the text after the last `/`, or all
      of `p` when it holds no `/`. */
  function LastSegment(p: string): (r: string)
    ensures |r| <= |p| && r == p[|p| - |r|..]
    ensures forall i :: 0 <= i < |r| ==> r[i] != '/'
    ensures |r| < |p| ==> p[|p| - |r| - 1] == '/'
  {
    if p == [] then []
    else if p[|p| - 1] == '/' then []
    else LastSegment(p[..|p| - 1]) + [p[|p| - 1]]
  }

  /** A text embedded in a longer one is contained in it. */
  lemma {:induction false} SuffixContains(prefix: string, sub: string, rest: string)
    ensures Contains(prefix + (sub + rest), sub)
  {
    if prefix == [] {
      assert prefix + (sub + rest) == sub + rest;
      assert sub <= sub + rest;
    } else {
      SuffixContains(prefix[1..], sub, rest);
      assert (prefix + (sub + rest))[1..] == prefix[1..] + (sub + rest);
    }
  }

  // ---------------------------------------------------------------------------
  // Tag stripping

  /** `html.replace(/<[^>]*>/g, '')`, as a left-to-right scan with two states:
      outside a tag, every character other than `<` is kept; at `<` the scan
      holds the tag text back until the next `>`, which discards it, or until
      the end of the input, which gives it back unchanged. */
  function StripHtmlTags(s: string): (r: string)
    ensures |r| <= |s|
  {
    ScanOutside(s)
  }

  function ScanOutside(s: string): (r: string)
    ensures |r| <= |s|
    decreases |s|
  {
    if s == [] then []
    else if s[0] == '<' then ScanInTag(s[1..], "<")
    else [s[0]] + ScanOutside(s[1..])
  }

  /** `held` is the text since the opening `<`, not yet known to be a tag. */
  function ScanInTag(s: string, held: string): (r: string)
    ensures |r| <= |held| + |s|
    decreases |s|
  {
    if s == [] then held
    else if s[0] == '>' then ScanOutside(s[1..])
    else ScanInTag(s[1..], held + [s[0]])
  }

  /** The first position of `c` in `s`, if any. */
  function IndexOf(s: string, c: char): (r: Option<nat>)
    ensures r.Some? ==> r.value < |s| && s[r.value] == c
    ensures r.Some? ==> forall k :: 0 <= k < r.value ==> s[k] != c
    ensures r.None? ==> forall k :: 0 <= k < |s| ==> s[k] != c
  {
    if s == [] then None
    else if s[0] == c then Some(0)
    else match IndexOf(s[1..], c)
      case None => None
      case Some(j) => Some(j + 1)
  }

  /** Where a match of `<[^>]*>` that starts at `i` ends (exclusively): the
      pattern's `[^>]*` cannot pass a `>`, so the match runs to the first `>`
      after the `<`, and there is none when no `>` follows. */
  function MatchAt(s: string, i: nat): (r: Option<nat>)
    requires i < |s|
    ensures r.Some? ==> i < r.value <= |s|
  {
    if s[i] != '<' then None
    else match IndexOf(s[i + 1..], '>')
      case None => None
      case Some(j) => Some(i + 1 + j + 1)
  }

  /** Reference semantics of the global replace `s.replace(/<[^>]*>/g, '')`,
      resuming the search for the leftmost match at position `k`: a match
      starting at `k` is dropped and the search resumes where it ends;
      otherwise the character at `k` is copied and the search moves on. */
  function ReplaceTagsFrom(s: string, k: nat): string
    requires k <= |s|
    decreases |s| - k
  {
    if k == |s| then []
    else match MatchAt(s, k)
      case Some(e) => ReplaceTagsFrom(s, e)
      case None => [s[k]] + ReplaceTagsFrom(s, k + 1)
  }

  function ReplaceTags(s: string): string {
    ReplaceTagsFrom(s, 0)
  }

  /** No `<` is followed, anywhere later, by a `>`: nothing the pattern
      `<[^>]*>` could match remains. */
  predicate NoTagLeft(s: string) {
    forall i, j :: 0 <= i < j < |s| && s[i] == '<' ==> s[j] != '>'
  }

  /** The held-back tag text is dropped at the first `>`, or returned with the
      rest of the input when no `>` comes. */
  lemma {:induction false} ScanInTagResult(s: string, held: string)
    ensures ScanInTag(s, held) ==
      match IndexOf(s, '>')
      case Some(j) => ScanOutside(s[j + 1..])
      case None => held + s
    decreases |s|
  {
    if s != [] && s[0] != '>' {
      ScanInTagResult(s[1..], held + [s[0]]);
      match IndexOf(s[1..], '>')
      case Some(j) =>
        assert s[1..][j + 1..] == s[j + 2..];
      case None =>
        assert held + [s[0]] + s[1..] == held + s;
    }
  }

  /** The scan computes the global replace: it is a faithful rendering of
      `html.replace(/<[^>]*>/g, '')`. */
  lemma StripIsGlobalReplace(s: string)
    ensures StripHtmlTags(s) == ReplaceTags(s)
  {
    ScanIsReplaceFrom(s, 0);
    assert s[0..] == s;
  }

  lemma {:induction false} ScanIsReplaceFrom(s: string, k: nat)
    requires k <= |s|
    ensures ScanOutside(s[k..]) == ReplaceTagsFrom(s, k)
    decreases |s| - k, 1
  {
    if k < |s| {
      if s[k] == '<' {
        ScanIsReplaceFromTag(s, k);
      } else {
        assert s[k..][1..] == s[k + 1..];
        ScanIsReplaceFrom(s, k + 1);
      }
    }
  }

  /** The step of the scan at a `<`: either a whole tag is dropped, or no `>`
      follows and the rest is copied as it is. */
  lemma {:induction false} ScanIsReplaceFromTag(s: string, k: nat)
    requires k < |s| && s[k] == '<'
    ensures ScanOutside(s[k..]) == ReplaceTagsFrom(s, k)
    decreases |s| - k, 0
  {
    var m := MatchAt(s, k);
    if m.Some? {
      ClosedTagDropped(s, k);
      ScanIsReplaceFrom(s, m.value);
    } else {
      ScanIsReplaceFrom(s, k + 1);
      UnclosedTagKept(s, k);
    }
  }

  /** A `<` followed somewhere by a `>` starts a match that both the scan and
      the replace drop whole. */
  lemma ClosedTagDropped(s: string, k: nat)
    requires k < |s| && s[k] == '<' && MatchAt(s, k).Some?
    ensures ScanOutside(s[k..]) == ScanOutside(s[MatchAt(s, k).value..])
    ensures ReplaceTagsFrom(s, k) == ReplaceTagsFrom(s, MatchAt(s, k).value)
  {
    var t := s[k + 1..];
    var j := IndexOf(t, '>').value;
    var e := k + j + 2;
    assert MatchAt(s, k) == Some(e);
    assert ReplaceTagsFrom(s, k) == ReplaceTagsFrom(s, e);
    var u := s[k..];
    assert u != [] && u[0] == '<' && u[1..] == t;
    assert ScanOutside(u) == ScanInTag(t, "<");
    ScanInTagResult(t, "<");
    assert ScanInTag(t, "<") == ScanOutside(t[j + 1..]);
    assert t[j + 1..] == s[e..];
  }

  /** A `<` with no `>` after it starts no match: it and the rest are kept
      by the scan, and copied one character at a time by the replace. */
  lemma UnclosedTagKept(s: string, k: nat)
    requires k < |s| && s[k] == '<' && MatchAt(s, k).None?
    requires ScanOutside(s[k + 1..]) == ReplaceTagsFrom(s, k + 1)
    ensures ScanOutside(s[k..]) == ReplaceTagsFrom(s, k)
  {
    var t := s[k + 1..];
    assert s[k..][1..] == t;
    ScanInTagResult(t, "<");
    StripKeepsTagFree(t);
    assert ScanOutside(s[k..]) == "<" + t;
    assert ReplaceTagsFrom(s, k) == [s[k]] + t;
    assert "<" + t == s[k..];
  }

  /** After stripping, no tag can be found any more. */
  lemma {:induction false} StripLeavesNoTag(s: string)
    ensures NoTagLeft(StripHtmlTags(s))
    decreases |s|
  {
    if s == [] {
    } else if s[0] == '<' {
      var t := s[1..];
      ScanInTagResult(t, "<");
      match IndexOf(t, '>')
      case Some(j) =>
        assert t[j + 1..] == s[j + 2..];
        StripLeavesNoTag(s[j + 2..]);
      case None =>
        assert "<" + t == s;
        assert forall k :: 0 <= k < |s| ==> s[k] != '>' by {
          forall k | 0 <= k < |s| ensures s[k] != '>' {
            if k > 0 { assert s[k] == t[k - 1]; }
          }
        }
    } else {
      StripLeavesNoTag(s[1..]);
      var r := ScanOutside(s[1..]);
      assert ScanOutside(s) == [s[0]] + r;
      ConsNoTag(s[0], r);
    }
  }

  lemma ConsNoTag(c: char, r: string)
    requires c != '<' && NoTagLeft(r)
    ensures NoTagLeft([c] + r)
  {
    var s := [c] + r;
    forall i, j | 0 <= i < j < |s| && s[i] == '<' ensures s[j] != '>' {
      assert i > 0;
      assert s[i] == r[i - 1] && s[j] == r[j - 1];
    }
  }

  /** Text with no tag in it passes through unchanged. */
  lemma {:induction false} StripKeepsTagFree(s: string)
    requires NoTagLeft(s)
    ensures StripHtmlTags(s) == s
    decreases |s|
  {
    if s == [] {
    } else if s[0] == '<' {
      var t := s[1..];
      ScanInTagResult(t, "<");
      match IndexOf(t, '>')
      case Some(j) =>
        assert false;
      case None =>
        assert "<" + t == s;
    } else {
      assert NoTagLeft(s[1..]) by {
        forall i, j | 0 <= i < j < |s[1..]| && s[1..][i] == '<' ensures s[1..][j] != '>' {
          assert s[1..][i] == s[i + 1] && s[1..][j] == s[j + 1];
        }
      }
      StripKeepsTagFree(s[1..]);
      assert [s[0]] + s[1..] == s;
    }
  }

  /** Stripping twice is stripping once. */
  lemma StripIdempotent(s: string)
    ensures StripHtmlTags(StripHtmlTags(s)) == StripHtmlTags(s)
  {
    StripLeavesNoTag(s);
    StripKeepsTagFree(StripHtmlTags(s));
  }

  /** A prefix of tag-free text is tag-free, and so is the text with a suffix
      that holds no `>`. */
  lemma NoTagPrefixAndSuffix(s: string, n: nat, suffix: string)
    requires NoTagLeft(s) && n <= |s|
    requires forall k :: 0 <= k < |suffix| ==> suffix[k] != '>'
    ensures NoTagLeft(s[..n] + suffix)
  {
    var t := s[..n] + suffix;
    forall i, j | 0 <= i < j < |t| && t[i] == '<' ensures t[j] != '>' {
      if j < n {
        assert t[i] == s[i] && t[j] == s[j];
      } else {
        assert t[j] == suffix[j - n];
      }
    }
  }

  // ---------------------------------------------------------------------------
  // Numbers as text

  function DigitChar(d: nat): (c: char)
    requires d < 10
    ensures '0' <= c <= '9'
  {
    "0123456789"[d]
  }

  /** `String(n)` for a natural number: its decimal digits. */
  function NatText(n: nat): (r: string)
    ensures |r| > 0
    ensures forall i :: 0 <= i < |r| ==> '0' <= r[i] <= '9'
    ensures n > 0 ==> r[0] != '0'
  {
    if n < 10 then [DigitChar(n)] else NatText(n / 10) + [DigitChar(n % 10)]
  }

  /** The value of a string of decimal digits, read left to right. */
  function DecimalValue(s: string): nat
    requires forall i :: 0 <= i < |s| ==> '0' <= s[i] <= '9'
  {
    if s == [] then 0 else DecimalValue(s[..|s| - 1]) * 10 + (s[|s| - 1] - '0') as nat
  }

  /** The digits `String(n)` writes read back as `n`. */
  lemma {:induction false} NatTextRoundTrip(n: nat)
    ensures DecimalValue(NatText(n)) == n
  {
    if n >= 10 {
      NatTextRoundTrip(n / 10);
      var r := NatText(n);
      assert r[..|r| - 1] == NatText(n / 10);
    }
  }

  /** `String(n)` for an integer-valued number. */
  function IntText(n: int): (r: string)
    ensures |r| > 0
    ensures n < 0 <==> r[0] == '-'
    ensures n >= 0 ==> r == NatText(n)
    ensures n < 0 ==> r[1..] == NatText(-n)
  {
    if n < 0 then "-" + NatText(-n) else NatText(n)
  }

  /** The value `String(n)` writes, sign included, reads back as `n`. */
  lemma IntTextRoundTrip(n: int)
    ensures n < 0 ==> DecimalValue(IntText(n)[1..]) == -n
    ensures n >= 0 ==> DecimalValue(IntText(n)) == n
  {
    if n < 0 {
      NatTextRoundTrip(-n);
    } else {
      NatTextRoundTrip(n);
    }
  }
}
